=== FILE: README.md ===
# GymFit decision logic in Dafny

GymFit is a gym-management web application: members book trainer sessions,
log workouts and health metrics, receive notifications and (on the Gold tier)
chat with an AI coach. This project models the parts of it that make
decisions, as pure functions over immutable datatypes, and proves what they
promise:

- **Session booking** (`Booking`): a member books, cancels and logs workouts.
  Booking is a decision taken in a fixed order: missing id, unknown session,
  full session, duplicate booking, then insert. Cancelling is a DELETE
  filtered by booking id, owner and the 'Session Booking' label. Every handler
  is one atomic transition on a `State` of sessions and workout-log rows.
- **Available sessions** (`Availability`): sessions from today on that still
  have a free seat, sorted by date and time.
- **Workout recommendations** (`Recommendations`): five rules (steps, sleep,
  weekly frequency, variety, calories) are evaluated in order. A default
  applies when none fires, and the list is cut to three. The SQL results are
  inputs.
- **Renewal notifications** (`Notifications`): active members whose membership
  ends within a week are each sent one renewal notice, unless they had one in
  the last seven days. The run commits as a whole or not at all. Session
  reminders and progress notes are inserted unconditionally.
- **Activity statistics** (`Metrics`) and **the AI coach** (`Assistant`):
  guarded averages, the distinct exercises, a three-way weight trend with
  ±0.5 kg thresholds, capped summaries, and the chat handler's gates. The
  external text generator is an oracle that either answers or fails; when it
  fails, the member gets a fixed report of their totals.
- **The rule-based reply** (`KeywordRouter`): `generate_ai_response` picks the
  first keyword group that occurs in the question, then answers from the
  member's data.
- **Browser helpers** (`Frontend`): `escapeHtml` and the unread badge on the
  notification bell.

`Wrappers` holds `Option` and `Result`. `Records` holds the table rows.

Conventions:

- Dates are day numbers and timestamps are seconds; "today" is `now / 86400`.
- Weights, sleep hours and calories are `real`. A `DECIMAL` column is
  distinguished from an `INT` column only where the code does so (`isinstance`
  in the sleep reply).
- SQL `NULL` is `None`.
- The database connection, the clock and the OpenAI call are parameters:
  a `Connection` or a `bool`, a given `now`, and an `Oracle`. Statement
  failures are parameters where the model handles them: the renewal run
  (`Connection.FailsAt`) and the chat handler (`failing`, the first of its
  five statements that raises). The three booking handlers leave them out
  (see "Left out").

## Model

| member | source | states |
|---|---|---|
| Booking.FindSession | Backend/app.py:921-929 | the lookup fails exactly when no session has the id; a found session has that id and is one of the sessions |
| Booking.Book | Backend/app.py:907-944 | a falsy id gives MissingSessionId. An unknown session gives SessionNotFound, a session at capacity gives SessionFull (checked before the duplicate test), and an existing booking gives AlreadyBooked. Every refusal leaves the state unchanged. A booking appends exactly one 'Session Booking'/'Booked' row with the session's date and duration, and raises that session's count by one |
| Booking.DeleteMatching | Backend/app.py:967 | the DELETE keeps every non-matching row, removes every matching one, and shrinks the table exactly when some row matches |
| Booking.Cancel | Backend/app.py:953-970 | a falsy id gives MissingBookingId. An id with no row of the caller labelled 'Session Booking' gives BookingNotFound and changes nothing. On success only matching rows are removed |
| Booking.CancelFreesOneSeat | Backend/app.py:967-970 | with unique log ids a successful cancel removes exactly one row, the caller's booking. The count of the session it booked drops by one and every other count is unchanged |
| Booking.AddWorkout | Backend/app.py:855-872 | only an absent `exercise`, `date` or `duration` key is refused as missing; a `null` value passes the key test. A null exercise is rejected by the insert. Every refusal leaves the state unchanged. Otherwise one row of the member's, with no session, is appended. It carries the given values, with a null date or duration stored as NULL, and no session's booking count changes |
| Booking.NullDateAndDurationAreLogged | Backend/app.py:859-866 | a body whose date and duration are `null` is logged, and the row stores both as NULL |
| Booking.BookPreservesValid | Backend/app.py:921-944 | a booking keeps every session within capacity, at most one booking per member and session, and fresh log ids |
| Booking.CancelPreservesValid | Backend/app.py:967-970 | a cancellation keeps the same invariants |
| Booking.AddWorkoutPreservesValid | Backend/app.py:866-872 | a workout log keeps the same invariants |
| Booking.ReplayPreservesValid | Backend/app.py:907-977 | any sequence of book, cancel and log requests keeps the invariants, so no session is ever over capacity |
| Booking.LastSeatGoesToOne | Backend/app.py:930-931 | when one seat is left, the first member to book gets it and a second member is then refused as full |
| Booking.CancelReopensSeat | Backend/app.py:967-970 | after a booking of a full session is cancelled, a member who was refused can book it |
| Availability.OpenSessions | Backend/app.py:892-896 | a session is kept exactly when its trainer has a row, it is dated today or later, and it has fewer bookings than seats |
| Availability.SortBySchedule | Backend/app.py:897 | the result is ordered by date, then time, and is a permutation of the input |
| Availability.Available | Backend/app.py:890-898 | the list is sorted by date and time and is a permutation of the open sessions. A session is listed exactly when its trainer is in the `Trainer` table (the inner join), it is dated today or later, and it is not full |
| Availability.OneMoreReservation | Backend/app.py:896 | with the sessions unchanged and one more reservation on one session, no session becomes listed. That session, if it has a trainer and is not past, stays listed exactly when it still has a free seat |
| Availability.BookingShrinksAvailability | Backend/app.py:896 | a booking never makes a session appear. A booked session with a trainer, dated today or later, is removed exactly when that booking filled it |
| Recommendations.LowMeanCaloriesIsMeanBelow200 | Backend/recommendations.py:118-120 | the calorie rule's test is the mean of the per-exercise average calories, NULL read as 0, being below 200 |
| Recommendations.Recommend | Backend/recommendations.py:26-147 | no connection gives an empty list and a storage error gives the single 'General Fitness' suggestion. Fetched data gives between one and three suggestions |
| Recommendations.FiredIsTriggered | Backend/recommendations.py:61-126 | a suggestion is produced exactly when its rule's condition holds on the data (steps, sleep, weekly count, one exercise group, low calories) |
| Recommendations.FiredRanked | Backend/recommendations.py:59-126 | the rules' suggestions are collected in strictly increasing rule order |
| Recommendations.TruncatedKeepsTop | Backend/recommendations.py:138 | cutting a rank-ordered list to three keeps its order, and anything cut ranks below every kept entry |
| Recommendations.TopRulesWhenFired | Backend/recommendations.py:128-138 | when some rule fires the result is not the default; every entry is triggered, entries follow rule order, and a triggered suggestion is left out only behind three higher-ranked ones |
| Recommendations.RecommendSelectsTopRules | Backend/recommendations.py:59-138 | the result is 'Current Routine' alone exactly when no rule fires. Otherwise every entry is triggered, the entries follow rule order, and a triggered suggestion is left out only when three earlier-ranked ones fill the list |
| Recommendations.LowActivityScenario | Backend/recommendations.py:61-104 | 4000 steps, 5 hours of sleep and two workouts this week give brisk walking, evening yoga and a mixed session, in that order |
| Recommendations.LowIntensityScenario | Backend/recommendations.py:117-126 | a single exercise averaging 150 kcal gets interval training |
| Notifications.ExpiringMembers | Backend/notifications.py:36-43 | a member is a candidate exactly when active, with an end date between today and seven days ahead, and distinct ids stay distinct |
| Notifications.ApplyRenewals | Backend/notifications.py:48-69 | the loop only appends, and at most one row per candidate |
| Notifications.CheckMembershipRenewals | Backend/notifications.py:25-76 | the loop equals the transactional run. The created count equals the rows added, and an unreachable database or a failed statement leaves the table unchanged |
| Notifications.NoticesOnlyForCandidates | Backend/notifications.py:48-69 | every row a run adds is for one of its candidates |
| Notifications.RenewalsOnlyAppendNotices | Backend/notifications.py:49-69 | every added row is an unread renewal notice created at the run's time, with 0 to 7 days left |
| Notifications.RecentNoticeSuppresses | Backend/notifications.py:52-61 | a member with a renewal notice from the last seven days gets none in this run |
| Notifications.NoticeIffNoRecentNotice | Backend/notifications.py:52-69 | for distinct candidates, a candidate gets a notice exactly when they have no renewal notice from the last seven days |
| Notifications.AtMostOneNoticeEach | Backend/notifications.py:52-69 | no member gets two notices in one run |
| Notifications.RenewalsKeepSpacing | Backend/notifications.py:52-69 | if all of a member's renewal notices are more than seven days apart, they still are after a run |
| Notifications.SecondRunWithinCooldownIsSilent | Backend/notifications.py:52-69 | a member notified in one run gets nothing in a second run held within seven days |
| Notifications.CreateSessionReminder | Backend/notifications.py:81-106 | on success exactly one unread session reminder for the member, stamped now and carrying the session details, date and time, is appended. On failure the table is unchanged and False is returned |
| Notifications.CreateProgressNotification | Backend/notifications.py:108-131 | on success exactly one unread progress notice carrying the message is appended. On failure nothing changes |
| Notifications.RemindersAreNotDeduplicated | Backend/notifications.py:92-95 | two identical reminders at the same instant are both stored |
| Notifications.ApplyKeepsSpacing | Backend/notifications.py:25-120 | a renewal check, a reminder or a progress note keeps renewal notices more than seven days apart |
| Notifications.HistoryKeepsRenewalsSpaced | Backend/notifications.py:25-120 | any chronological history of those operations keeps renewal notices more than seven days apart |
| Metrics.AvgDuration | Backend/ai_chatbot.py:15 | 0 without workouts; otherwise the mean times the count is the summed durations, NULL read as 0 |
| Metrics.AvgCalories | Backend/ai_chatbot.py:16-17 | 0 without workouts, so no division by zero; otherwise the mean times the count is the total calories |
| Metrics.AvgDurationWithinBounds | Backend/ai_chatbot.py:15 | the mean duration lies within any bounds that every duration respects |
| Metrics.Variety | Backend/ai_chatbot.py:20 | the list has no duplicates and holds exactly the exercise labels of the workouts |
| Metrics.VarietyCountsDistinctLabels | Backend/ai_chatbot.py:20 | its length is the number of distinct labels |
| Metrics.ClassifyMonotone | Backend/ai_chatbot.py:34-37 | a larger weight change never gives a lower trend |
| Metrics.ClassifySymmetric | Backend/ai_chatbot.py:30-37 | negating the change flips the trend, and the trend is stable exactly for changes within ±0.5 |
| Metrics.WeightTrend | Backend/ai_chatbot.py:29-37 | fewer than two samples give stable with change 0. Otherwise it fails exactly when the newest or oldest weight is NULL. The change is the newest weight minus the oldest, and the trend classifies it |
| Metrics.TrendOfReversedSamples | Backend/ai_chatbot.py:32-37 | reading the samples in the other order negates the change and flips the trend |
| Metrics.SummarizeFirst | Backend/ai_chatbot.py:40-47 | the workout summary has min(5, n) entries, taken from the front |
| Metrics.FirstN | Backend/ai_chatbot.py:50-56 | the session summary has min(3, n) entries, taken from the front |
| Metrics.ComputeStats | Backend/ai_chatbot.py:13-56 | the statistics fail exactly when the weight trend does. Otherwise the total is the workout count, and the averages, total calories and variety are those of the workouts. The latest sample is the first (newest) one, absent without samples, and the trend and change are the weight trend's. The summaries are the first 5 workouts and the first 3 sessions, and average calories times the count is the total |
| Assistant.Strip | Backend/app.py:405 | the stripped question neither starts nor ends with whitespace |
| Assistant.StripIsSlice | Backend/app.py:405 | the stripped question is a contiguous slice of the question, and everything cut before and after it is whitespace |
| Assistant.StripEmptyIffBlank | Backend/app.py:405-408 | a stripped question is empty exactly when the question is all whitespace |
| Assistant.StripIdempotent | Backend/app.py:405 | stripping twice is stripping once |
| Assistant.Report | Backend/ai_chatbot.py:22-26 | the fallback report carries the workout count, the average duration, the total calories, and the newest sample's weight, steps and sleep, absent with no sample |
| Assistant.SmartResponse | Backend/ai_chatbot.py:10-129 | it fails exactly when the weight trend or the join date does. An answer from the generator is returned as is. A failing generator gives the fallback with the literal totals and the newest sample's weight, steps and sleep, absent without samples |
| Assistant.FallbackNeverFails | Backend/ai_chatbot.py:112-129 | with a join date and weighed end samples, a failing generator yields the fallback, never an error |
| Assistant.Chat | Backend/app.py:376-455 | another member's account is refused first, and an unreachable database then gives the connection error. Success requires the caller's own account, a connection, no failing statement and the Gold tier. A failing tier lookup is an internal error. A blank question is refused as empty before the data queries run, and a failing data query then gives an internal error |
| Assistant.ChatReachesCoachOnlyWhenAllowed | Backend/app.py:381-449 | a Gold member whose statements all succeed and who asks a non-blank question gets exactly the coach's reply. Once the tier lookup succeeds, any other tier, or a missing member, is refused as not Gold |
| KeywordRouter.Contains | Backend/app.py:474 | Python's `word in question`: true exactly when the word occurs at some position |
| KeywordRouter.ContainsTransitive | Backend/app.py:506-520 | a question containing a word contains every word inside it |
| KeywordRouter.Route | Backend/app.py:474-602 | the default greeting is chosen exactly when no keyword group matches; otherwise the topic is that of the first matching group |
| KeywordRouter.RouteIsFirstHit | Backend/app.py:474-602 | any matching group puts the chosen topic at its position or earlier, and the chosen topic is the first match |
| KeywordRouter.PlanNeverReachesMembership | Backend/app.py:564-587 | a question containing 'plan' is never answered with the membership reply |
| KeywordRouter.TrainerRoutesToWorkoutOrEarlier | Backend/app.py:506-520 | a question containing 'trainer' never reaches the session reply, because 'train' matches first |
| KeywordRouter.Latest | Backend/app.py:468 | a sample is present exactly when there is one, and it is the first (newest) one |
| KeywordRouter.ReplyAsWritten | Backend/app.py:551-562 | the calorie reply fails with a division by zero exactly when there are no workouts; otherwise its average times the count is the total |
| KeywordRouter.DietQuestionRoute | Backend/app.py:474-551 | the question "diet" is routed to the calorie reply |
| KeywordRouter.DietQuestionWithoutWorkoutsFails | Backend/app.py:555 | asking "diet" with no workouts raises the division by zero |
| KeywordRouter.ReplyFor | Backend/app.py:551-562 | the guarded calorie reply always succeeds, with average 0 when there are no workouts |
| KeywordRouter.GuardedReplyFixesOnlyTheDivision | Backend/app.py:555 | the guarded reply agrees with the handler whenever the handler succeeds, and differs exactly on calorie questions without workouts |
| KeywordRouter.ReplyBranches | Backend/app.py:474-549 | progress is on track exactly at 12 or more workouts. Fewer than two samples ask for weight data, a NULL end weight fails, the amount shown is the absolute newest-minus-oldest change, and 'lost' holds exactly when the weight went down. Variety is asked for below three distinct exercises, and at most three sessions are shown |
| Frontend.Entity | Frontend/static/script.js:617-624 | each special character becomes an entity starting with '&'; every other character stays itself |
| Frontend.EscapeText | Frontend/static/script.js:615-625 | the output has no '<', '>', '"' or '\'' and is never shorter than the input. It equals the input exactly when there is no special character, and is strictly longer exactly when there is one |
| Frontend.EscapeHtml | Frontend/static/script.js:616 | a missing text gives the empty string, any other text is escaped |
| Frontend.EscapeConcat | Frontend/static/script.js:624 | escaping works character by character: escaping a concatenation concatenates the escapes |
| Frontend.UnescapeEscape | Frontend/static/script.js:617-624 | the entities can be read back, so escaping loses nothing |
| Frontend.EscapeInjective | Frontend/static/script.js:617-624 | different texts never escape to the same markup |
| Frontend.UnreadCount | Frontend/static/script.js:844 | the count is at most the number of notifications. It is 0 exactly when none is unread and the total exactly when all are |
| Frontend.FeedOf | Backend/app.py:649-654 | the JSON feed has one flag per notification sent, in order, 1 for read and 0 for unread |
| Frontend.UnreadCountMatchesTable | Frontend/static/script.js:844 | for a feed built from a list of notifications, the count is the number of unread ones in the list |
| Frontend.MemberNotices | Backend/app.py:639-640 | a notification is kept exactly when it belongs to the member |
| Frontend.SortNewestFirst | Backend/app.py:641 | the result is ordered by creation time, newest first. It is a permutation of the input with the same number unread |
| Frontend.NotificationsFor | Backend/app.py:637-647 | a non-member gets nothing. A member gets at most ten notifications, all their own and taken from the table, newest first |
| Frontend.FeedLength | Backend/app.py:642 | the feed holds min(10, the member's notification count) entries |
| Frontend.FewNoticesAllShown | Backend/app.py:639-642 | a member with at most ten notifications is sent all of them, with the same number unread |
| Frontend.OmittedAreOlder | Backend/app.py:641-642 | a notification of the member is left out only when they have more than ten, and then it is no newer than any notification shown |
| Frontend.BadgeCountsMembersUnread | Frontend/static/script.js:841-846 | the badge count is the number of unread notifications in the feed, at most ten. With at most ten notifications, it is the member's total unread count |
| Frontend.LoadNotifications | Frontend/static/script.js:841-855 | with no response or no badge nothing changes. Otherwise the badge is shown exactly when some notification is unread, and then it shows the unread count |

## Left out

- Concurrency: each handler is one atomic step. The count-then-insert in `book_session` and the check-then-insert in the renewal loop can race; a sequential model says nothing about interleavings.
- Flask routing, login and role decorators, sessions, password hashing and CORS. The caller's member id is a parameter.
- SQL text, connections and cursors: query results are inputs, and writes are new states.
- Storage errors inside `book_session`, `cancel_session` and `add_workout` (500 plus rollback) are not modelled, and such a request leaves the state unchanged. In `chat_with_ai` and the renewal run they are parameters.
- Booking.AddWorkout: the `WorkoutLog` schema is not part of this model. A present-but-`null` exercise is taken to be refused by the database (`InsertRejected`, the 500 of the `except` branch), because every workout row the engine reads carries an exercise label.
- The OpenAI request is an `Oracle`. The prompt text is not modelled.
- Message formatting, `strftime`, emoji and the markdown parser: replies are modelled by the branch taken and the values they show.
- Floating point: `real` stands for Python floats and MySQL decimals.
- The water-intake line of the calorie reply is not shown.
- The 30-day and 7-day windows, `LIMIT 5` and `ORDER BY Date DESC` of the chat and recommendation queries are taken as given inputs. The `get_notifications` query (member filter, newest first, `LIMIT 10`) is modelled by `Frontend.NotificationsFor`; its error responses are the `None` response of `Frontend.LoadNotifications`.
- Frontend.NotificationsFor: MySQL's order among notifications created in the same second is unspecified. The model sorts stably, and it proves only the newest-first order, the member filter, the limit and which notifications may be left out.
- `Backend/mysql_operations.py` is pure I/O and not part of this model.
- Availability.Available: MySQL's order among sessions with the same date and time is unspecified; the model sorts stably and proves only the date-time order and the permutation.
- Metrics.Variety: Python's set order is unspecified. The list keeps the last occurrence of each label, and only its contents and length are promised.
- Frontend.EscapeHtml: non-string arguments (`toString()` of numbers) are not modelled. `undefined`, `null` and `''` are all `None` or the empty string.
- Assistant.Chat: a request body that is not JSON, or a question that is not a string, is not modelled. An absent question is the empty string, as `get('question', '')` makes it.
- Notifications.SecondRunWithinCooldownIsSilent: proved for members notified in the first run. A member suppressed in the first run by an older notice can be notified in the second once that notice is more than seven days old, so the unrestricted claim is false. `Notifications.RenewalsKeepSpacing` states the general guarantee.
- KeywordRouter.ReplyBranches: the sleep branch only promises that "on track" needs a sample. The full test (an integer value of at least 7, so a DECIMAL 8.0 is not on track) is `KeywordRouter.SleepOnTrack`.
- `generate_ai_response` is not called by any route in `Backend/app.py`; the chat route uses the OpenAI-backed reply. It is modelled because its routing and arithmetic are self-contained.
- Two behaviours of the code worth noting:
  - The seven-day cooldown applies only to renewal notices; reminders and progress notes are never deduplicated.
  - Cancelling a 'Session Booking' row written by `add_workout` (no session id) deletes it but frees no seat.

## Findings

| source | as written | input that shows it | evidently intended | confidence | as-written member | corrected member |
|---|---|---|---|---|---|---|
| Backend/app.py:555 | the calorie reply divides the total calories by the workout count without a guard | the question "diet" from a member with no workouts in the last 30 days raises ZeroDivisionError | an average of 0 when there are no workouts, as the coach's statistics do at Backend/ai_chatbot.py:17 | high; not executed | KeywordRouter.DietQuestionWithoutWorkoutsFails | KeywordRouter.GuardedReplyFixesOnlyTheDivision |

=== FILE: assistant.dfy ===
/** The AI chat endpoint for Gold members: the tier gate, the question
    check, the statistics gathered for the coach, and the deterministic
    reply used when the external text generator cannot be reached. The
    generator itself is an oracle: it either answers with some text or fails. */
module Assistant {
  import opened Wrappers
  import opened Records
  import opened Metrics

  // -------------------------------------------------------------- question

  /** The characters Python's `str.isspace` accepts. */
  predicate IsSpace(c: char) {
    || ('\U{0009}' <= c <= '\U{000D}')
    || ('\U{001C}' <= c <= '\U{0020}')
    || c == '\U{0085}' || c == '\U{00A0}' || c == '\U{1680}'
    || ('\U{2000}' <= c <= '\U{200A}')
    || c == '\U{2028}' || c == '\U{2029}' || c == '\U{202F}' || c == '\U{205F}' || c == '\U{3000}'
  }

  predicate AllSpace(s: string) {
    forall i :: 0 <= i < |s| ==> IsSpace(s[i])
  }

  /** `s` without its leading whitespace. */
  function StripLeft(s: string): (r: string)
    ensures |r| <= |s| && r == s[|s| - |r|..]
    ensures AllSpace(s[..|s| - |r|])
    ensures r == [] || !IsSpace(r[0])
  {
    if s != [] && IsSpace(s[0]) then
      var r := StripLeft(s[1..]);
      assert s[1..][|s| - 1 - |r|..] == s[|s| - |r|..];
      assert forall i :: 1 <= i < |s| - |r| ==> s[i] == s[1..][..|s| - 1 - |r|][i - 1];
      r
    else s
  }

  /** `s` without its trailing whitespace. */
  function StripRight(s: string): (r: string)
    ensures |r| <= |s| && r == s[..|r|]
    ensures AllSpace(s[|r|..])
    ensures r == [] || !IsSpace(r[|r| - 1])
    decreases |s|
  {
    if s != [] && IsSpace(s[|s| - 1]) then
      var r := StripRight(s[..|s| - 1]);
      assert forall i :: |r| <= i < |s| - 1 ==> s[i] == s[..|s| - 1][|r|..][i - |r|];
      r
    else s
  }

  /** Both ends of the doubly stripped text are not whitespace. */
  lemma StrippedEnds(s: string)
    ensures StripRight(StripLeft(s)) == []
            || (!IsSpace(StripRight(StripLeft(s))[0]) && !IsSpace(StripRight(StripLeft(s))[|StripRight(StripLeft(s))| - 1]))
  {
    var left := StripLeft(s);
    var r := StripRight(left);
    if r != [] {
      assert r[0] == left[0];
    }
  }

  /** Python's `str.strip()` with no argument. */
  function Strip(s: string): (r: string)
    ensures r == [] || (!IsSpace(r[0]) && !IsSpace(r[|r| - 1]))
  {
    StrippedEnds(s);
    StripRight(StripLeft(s))
  }

  /** The stripped question is a slice of it with only whitespace around it. */
  lemma StripIsSlice(s: string) returns (i: nat, j: nat)
    ensures 0 <= i <= j <= |s| && Strip(s) == s[i..j]
    ensures AllSpace(s[..i]) && AllSpace(s[j..])
  {
    var left := StripLeft(s);
    var r := StripRight(left);
    i := |s| - |left|;
    j := i + |r|;
    assert r == s[i..j];
    assert s[j..] == left[|r|..];
  }

  lemma AllSpaceConcat(a: string, b: string)
    ensures AllSpace(a + b) <==> AllSpace(a) && AllSpace(b)
  {
    if AllSpace(a + b) {
      forall i | 0 <= i < |a| ensures IsSpace(a[i]) {
        assert (a + b)[i] == a[i];
      }
      forall i | 0 <= i < |b| ensures IsSpace(b[i]) {
        assert (a + b)[|a| + i] == b[i];
      }
    }
  }

  /** A text is blank when its first character and the rest are. */
  lemma AllSpaceFront(s: string)
    requires s != []
    ensures AllSpace(s) <==> IsSpace(s[0]) && AllSpace(s[1..])
  {
    assert s == [s[0]] + s[1..];
    AllSpaceConcat([s[0]], s[1..]);
  }

  /** A text is blank when its last character and the rest are. */
  lemma AllSpaceBack(s: string)
    requires s != []
    ensures AllSpace(s) <==> AllSpace(s[..|s| - 1]) && IsSpace(s[|s| - 1])
  {
    assert s == s[..|s| - 1] + [s[|s| - 1]];
    AllSpaceConcat(s[..|s| - 1], [s[|s| - 1]]);
  }

  /** Cutting leading whitespace keeps a text blank or not blank. */
  lemma {:induction false} StripLeftBlank(s: string)
    ensures AllSpace(StripLeft(s)) <==> AllSpace(s)
  {
    if s != [] && IsSpace(s[0]) {
      StripLeftBlank(s[1..]);
      AllSpaceFront(s);
    }
  }

  /** Cutting trailing whitespace leaves nothing exactly from a blank text. */
  lemma {:induction false} StripRightBlank(s: string)
    ensures StripRight(s) == [] <==> AllSpace(s)
    decreases |s|
  {
    if s != [] {
      AllSpaceBack(s);
      if IsSpace(s[|s| - 1]) {
        StripRightBlank(s[..|s| - 1]);
      }
    }
  }

  /** A question is blank exactly when it is all whitespace. */
  lemma StripEmptyIffBlank(s: string)
    ensures Strip(s) == [] <==> AllSpace(s)
  {
    StripLeftBlank(s);
    StripRightBlank(StripLeft(s));
  }

  /** Stripping twice is stripping once. */
  lemma StripIdempotent(s: string)
    ensures Strip(Strip(s)) == Strip(s)
  {
    var r := Strip(s);
    if r != [] {
      assert StripLeft(r) == r;
      assert StripRight(r) == r;
    }
  }

  // ------------------------------------------------------------- the reply

  /** What the external generator does with one request. */
  datatype Oracle = Answers(text: string) | Unavailable

  /** The deterministic reply: the member's literal totals and latest
      weight, steps and sleep (absent when no sample exists). */
  datatype FallbackReport = FallbackReport(
    workouts: nat,
    avgDuration: real,
    totalCalories: real,
    weight: Option<Option<real>>,
    steps: Option<Option<int>>,
    sleep: Option<Option<Number>>)

  datatype Reply = Generated(text: string) | Fallback(report: FallbackReport)

  /** Why the chat handler answers with an error status. */
  datatype ChatError =
    | NotOwnAccount        // 403: the caller asks about another member
    | NoConnection         // 500: the database is unreachable
    | NotGold              // 403: missing member or a tier other than Gold
    | EmptyQuestion        // 400: nothing but whitespace
    | InternalError        // 500: an exception while building the reply

  /** The fallback built from the statistics. */
  function Report(st: Stats): (r: FallbackReport)
    ensures r.workouts == st.total && r.avgDuration == st.avgDuration && r.totalCalories == st.totalCalories
    ensures r.weight.Some? <==> st.latest.Some?
    ensures st.latest.Some? ==> r.weight == Some(st.latest.value.weight)
                                 && r.steps == Some(st.latest.value.steps)
                                 && r.sleep == Some(st.latest.value.sleepHours)
  {
    match st.latest
    case None => FallbackReport(st.total, st.avgDuration, st.totalCalories, None, None, None)
    case Some(h) => FallbackReport(st.total, st.avgDuration, st.totalCalories, Some(h.weight), Some(h.steps), Some(h.sleepHours))
  }

  /** The coach's reply: statistics first (a NULL weight in the trend or a
      missing join date raises before the generator is asked), then the
      generator's text, or the fallback when the generator fails. */
  function SmartResponse(
    info: MemberInfo, ws: seq<LogRow>, hs: seq<HealthSample>, sessions: seq<UpcomingSession>, oracle: Oracle)
    : (r: Result<Reply, ChatError>)
    ensures r.Failure? <==> WeightTrend(hs).Failure? || info.joinDate.None?
    ensures r.Success? && oracle.Answers? ==> r.value == Generated(oracle.text)
    ensures r.Success? && oracle.Unavailable? ==>
      r.value.Fallback? && r.value.report.workouts == |ws|
      && r.value.report.avgDuration == AvgDuration(ws)
      && r.value.report.totalCalories == TotalCalories(ws)
    ensures r.Success? && oracle.Unavailable? ==>
      && (r.value.report.weight.Some? <==> |hs| > 0)
      && (|hs| > 0 ==> r.value.report.weight == Some(hs[0].weight)
                       && r.value.report.steps == Some(hs[0].steps)
                       && r.value.report.sleep == Some(hs[0].sleepHours))
  {
    match ComputeStats(ws, hs, sessions)
    case Failure(_) => Failure(InternalError)
    case Success(st) =>
      if info.joinDate.None? then Failure(InternalError)
      else
        match oracle
        case Answers(text) => Success(Generated(text))
        case Unavailable => Success(Fallback(Report(st)))
  }

  /** With at most one health sample, or with both end samples weighed, a
      failing generator still yields the fallback, never an error. */
  lemma FallbackNeverFails(
    info: MemberInfo, ws: seq<LogRow>, hs: seq<HealthSample>, sessions: seq<UpcomingSession>)
    requires info.joinDate.Some?
    requires |hs| >= 2 ==> hs[0].weight.Some? && hs[|hs| - 1].weight.Some?
    ensures SmartResponse(info, ws, hs, sessions, Unavailable).Success?
    ensures SmartResponse(info, ws, hs, sessions, Unavailable).value.Fallback?
  {
  }

  /** The five statements the chat handler runs, in order: the tier lookup
      before the question is read, the four data queries after it. */
  datatype Query = TierQuery | ProfileQuery | WorkoutQuery | HealthQuery | SessionQuery

  /** The chat handler for member `member`, asked by the logged-in `caller`.
      `tier` is the member's membership name, `None` when the member does
      not exist; `question` is the request's field, `None` when absent;
      `failing` is the first statement that raises, if any. */
  function Chat(
    caller: MemberId, member: MemberId, connected: bool, failing: Option<Query>, tier: Option<string>,
    question: Option<string>, info: MemberInfo, ws: seq<LogRow>, hs: seq<HealthSample>,
    sessions: seq<UpcomingSession>, oracle: Oracle)
    : (r: Result<Reply, ChatError>)
    ensures caller != member ==> r == Failure(NotOwnAccount)
    ensures caller == member && !connected ==> r == Failure(NoConnection)
    ensures r.Success? ==> caller == member && connected && failing.None? && tier == Some("Gold")
    ensures r.Success? ==> !AllSpace(question.GetOr(""))
    ensures caller == member && connected && failing == Some(TierQuery) ==> r == Failure(InternalError)
    ensures caller == member && connected && failing != Some(TierQuery) && tier == Some("Gold")
            && AllSpace(question.GetOr(""))
            ==> r == Failure(EmptyQuestion)
    ensures caller == member && connected && failing.Some? && tier == Some("Gold")
            && !AllSpace(question.GetOr(""))
            ==> r == Failure(InternalError)
  {
    if caller != member then Failure(NotOwnAccount)
    else if !connected then Failure(NoConnection)
    else if failing == Some(TierQuery) then Failure(InternalError)
    else if tier != Some("Gold") then Failure(NotGold)
    else
      var q := Strip(question.GetOr(""));
      StripEmptyIffBlank(question.GetOr(""));
      if q == [] then Failure(EmptyQuestion)
      else if failing.Some? then Failure(InternalError)
      else SmartResponse(info, ws, hs, sessions, oracle)
  }

  /** Only a Gold member asking a non-blank question about their own account,
      with every statement succeeding, reaches the coach, and then the reply
      is exactly the coach's; any other tier, a missing member included, is
      refused once the tier lookup succeeds. */
  lemma ChatReachesCoachOnlyWhenAllowed(
    caller: MemberId, member: MemberId, connected: bool, failing: Option<Query>, tier: Option<string>,
    question: Option<string>, info: MemberInfo, ws: seq<LogRow>, hs: seq<HealthSample>,
    sessions: seq<UpcomingSession>, oracle: Oracle)
    ensures caller == member && connected && failing.None? && tier == Some("Gold") && !AllSpace(question.GetOr(""))
      ==> Chat(caller, member, connected, failing, tier, question, info, ws, hs, sessions, oracle)
          == SmartResponse(info, ws, hs, sessions, oracle)
    ensures caller == member && connected && failing != Some(TierQuery) && tier != Some("Gold")
      ==> Chat(caller, member, connected, failing, tier, question, info, ws, hs, sessions, oracle) == Failure(NotGold)
  {
    StripEmptyIffBlank(question.GetOr(""));
  }
}

=== FILE: availability.dfy ===
/** The list of sessions a member may still book: those on or after today
    that are not full, in schedule order. */
module Availability {
  import opened Wrappers
  import opened Records
  import opened Booking

  /** Whether `a` is scheduled no later than `b`, by date and then time of day. */
  predicate NotAfter(a: Session, b: Session) {
    a.date < b.date || (a.date == b.date && a.time <= b.time)
  }

  predicate Sorted(s: seq<Session>) {
    forall i, j :: 0 <= i < j < |s| ==> NotAfter(s[i], s[j])
  }

  /** Whether session `s` is offered for booking on day `today`, given the
      ids of the `Trainer` table: the query joins each session with its
      trainer, so a session whose trainer has no row is never listed. */
  predicate IsOpen(st: State, trainers: set<int>, s: Session, today: int) {
    s.trainer in trainers && s.date >= today && BookingCount(st.log, s.id) < s.maxParticipants
  }

  /** The open sessions of `sessions`, in table order. */
  function OpenSessions(st: State, trainers: set<int>, sessions: seq<Session>, today: int): (r: seq<Session>)
    ensures forall s :: s in r <==> s in sessions && IsOpen(st, trainers, s, today)
    ensures |r| <= |sessions|
  {
    if sessions == [] then []
    else
      var rest := OpenSessions(st, trainers, sessions[1..], today);
      assert sessions == [sessions[0]] + sessions[1..];
      if IsOpen(st, trainers, sessions[0], today) then [sessions[0]] + rest else rest
  }

  /** A session scheduled no later than everything in a sorted sequence
      can be put in front of it. */
  lemma SortedCons(h: Session, s: seq<Session>)
    requires Sorted(s) && forall y :: y in s ==> NotAfter(h, y)
    ensures Sorted([h] + s)
  {
    var r := [h] + s;
    forall i, j | 0 <= i < j < |r| ensures NotAfter(r[i], r[j]) {
      assert r[j] == s[j - 1];
      if i > 0 {
        assert r[i] == s[i - 1];
      }
    }
  }

  /** `x` placed into the sorted sequence `s` before the first session it does
      not come after. */
  function Insert(x: Session, s: seq<Session>): (r: seq<Session>)
    requires Sorted(s)
    ensures Sorted(r)
    ensures multiset(r) == multiset(s) + multiset{x}
    ensures forall y :: y in r ==> y == x || y in s
  {
    if s == [] then [x]
    else if NotAfter(x, s[0]) then
      SortedCons(x, s);
      [x] + s
    else
      assert s == [s[0]] + s[1..];
      var rest := Insert(x, s[1..]);
      assert forall y :: y in s[1..] ==> NotAfter(s[0], y);
      SortedCons(s[0], rest);
      [s[0]] + rest
  }

  /** Insertion sort by schedule. */
  function SortBySchedule(s: seq<Session>): (r: seq<Session>)
    ensures Sorted(r)
    ensures multiset(r) == multiset(s)
  {
    if s == [] then []
    else
      assert s == [s[0]] + s[1..];
      Insert(s[0], SortBySchedule(s[1..]))
  }

  /** The sessions listed as available on day `today`; `trainers` holds the
      ids of the `Trainer` table. */
  function Available(st: State, trainers: set<int>, today: int): (r: seq<Session>)
    ensures Sorted(r)
    ensures multiset(r) == multiset(OpenSessions(st, trainers, st.sessions, today))
    ensures forall s :: s in r <==> s in st.sessions && s.trainer in trainers && s.date >= today
                                     && BookingCount(st.log, s.id) < s.maxParticipants
  {
    var open := OpenSessions(st, trainers, st.sessions, today);
    var r := SortBySchedule(open);
    assert forall s :: s in open <==> s in multiset(open);
    assert forall s :: s in r <==> s in multiset(r);
    r
  }

  /** One more reservation of session `sid`, and nothing else changed, can
      only take sessions off the list: `sid` itself, when the reservation
      was its last seat. */
  lemma OneMoreReservation(st: State, st': State, trainers: set<int>, sid: SessionId, today: int)
    requires st'.sessions == st.sessions
    requires BookingCount(st'.log, sid) == BookingCount(st.log, sid) + 1
    requires forall x :: x != sid ==> BookingCount(st'.log, x) == BookingCount(st.log, x)
    ensures forall s :: s in Available(st', trainers, today) ==> s in Available(st, trainers, today)
    ensures forall s :: s in st.sessions && s.id == sid && s.trainer in trainers && s.date >= today ==>
      (s in Available(st', trainers, today) <==> BookingCount(st.log, sid) + 1 < s.maxParticipants)
  {
    forall s | s in Available(st', trainers, today) ensures s in Available(st, trainers, today) {
      assert BookingCount(st.log, s.id) <= BookingCount(st'.log, s.id);
    }
  }

  /** A successful booking never adds a session to the available list, and
      removes it exactly when it takes the last seat. */
  lemma BookingShrinksAvailability(st: State, trainers: set<int>, m: MemberId, sid: SessionId, today: int)
    requires Book(st, m, Some(sid)).0 == Booked
    ensures forall s :: s in Available(Book(st, m, Some(sid)).1, trainers, today) ==> s in Available(st, trainers, today)
    ensures var s := FindSession(st.sessions, sid).value;
      s.trainer in trainers && s.date >= today ==>
        (s in Available(Book(st, m, Some(sid)).1, trainers, today) <==> BookingCount(st.log, sid) + 1 < s.maxParticipants)
  {
    OneMoreReservation(st, Book(st, m, Some(sid)).1, trainers, sid, today);
  }
}

=== FILE: booking.dfy ===
/** The booking coordinator: reserving a place in a trainer session,
    cancelling a reservation, and logging an ordinary workout, each as one
    atomic transition of the `Session` and `WorkoutLog` tables.

    A reservation is a `WorkoutLog` row labelled `SessionBooking` that
    references the session; a session's occupancy is the number of such rows. */
module Booking {
  import opened Wrappers
  import opened Records

  /** The tables the handlers read and write. `nextLogId` is the
      auto-increment counter of `WorkoutLog`. */
  datatype State = State(sessions: seq<Session>, log: seq<LogRow>, nextLogId: LogId)

  /** The number of reservations of session `sid` in `log`. */
  function BookingCount(log: seq<LogRow>, sid: SessionId): nat
  {
    if log == [] then 0
    else BookingCount(log[..|log| - 1], sid) + (if IsBookingFor(log[|log| - 1], sid) then 1 else 0)
  }

  lemma {:induction false} BookingCountConcat(a: seq<LogRow>, b: seq<LogRow>, sid: SessionId)
    ensures BookingCount(a + b, sid) == BookingCount(a, sid) + BookingCount(b, sid)
    decreases |b|
  {
    if b == [] {
      assert a + b == a;
    } else {
      var n := |b| - 1;
      assert (a + b)[..|a + b| - 1] == a + b[..n];
      assert (a + b)[|a + b| - 1] == b[n];
      BookingCountConcat(a, b[..n], sid);
    }
  }

  /** The session with id `sid`, if the table has one. */
  function FindSession(sessions: seq<Session>, sid: SessionId): (r: Option<Session>)
    ensures r.None? <==> forall i :: 0 <= i < |sessions| ==> sessions[i].id != sid
    ensures r.Some? ==> r.value.id == sid && r.value in sessions
  {
    if sessions == [] then None
    else if sessions[0].id == sid then Some(sessions[0])
    else FindSession(sessions[1..], sid)
  }

  /** Whether member `m` already holds a reservation of session `sid`. */
  predicate HoldsBooking(log: seq<LogRow>, m: MemberId, sid: SessionId) {
    exists i :: 0 <= i < |log| && log[i].member == m && IsBookingFor(log[i], sid)
  }

  /** A request's id field passes the handlers' `if not id` guard only when
      it is present and non-zero. */
  predicate Truthy(id: Option<int>) {
    id.Some? && id.value != 0
  }

  // ---------------------------------------------------------------- booking

  datatype BookResult = Booked | MissingSessionId | SessionNotFound | SessionFull | AlreadyBooked

  /** The reservation row the booking handler inserts for member `m`. */
  function ReservationRow(st: State, m: MemberId, s: Session): LogRow {
    LogRow(st.nextLogId, m, Some(s.id), SessionBooking, Some(s.date), s.duration,
           None, None, Some(BookedProgress))
  }

  /** Book session `request` for member `m`. The checks run in the order
      missing id, unknown session, full session, existing reservation; only
      when all pass is one reservation row inserted. */
  function Book(st: State, m: MemberId, request: Option<SessionId>): (out: (BookResult, State))
    ensures out.0 != Booked ==> out.1 == st
    ensures out.0 == MissingSessionId <==> !Truthy(request)
    ensures Truthy(request) ==>
      (out.0 == SessionNotFound <==> forall i :: 0 <= i < |st.sessions| ==> st.sessions[i].id != request.value)
    ensures Truthy(request) && FindSession(st.sessions, request.value).Some? ==>
      var s := FindSession(st.sessions, request.value).value;
      && (out.0 == SessionFull <==> BookingCount(st.log, s.id) >= s.maxParticipants)
      && (out.0 == AlreadyBooked <==>
            BookingCount(st.log, s.id) < s.maxParticipants && HoldsBooking(st.log, m, s.id))
      && (out.0 == Booked <==>
            BookingCount(st.log, s.id) < s.maxParticipants && !HoldsBooking(st.log, m, s.id))
    ensures out.0 == Booked ==>
      var s := FindSession(st.sessions, request.value).value;
      && out.1.sessions == st.sessions
      && out.1.nextLogId == st.nextLogId + 1
      && out.1.log == st.log + [ReservationRow(st, m, s)]
      && out.1.log[|st.log|].member == m && IsBookingFor(out.1.log[|st.log|], s.id)
      && out.1.log[|st.log|].date == Some(s.date) && out.1.log[|st.log|].duration == s.duration
      && out.1.log[|st.log|].progress == Some(BookedProgress)
      && HoldsBooking(out.1.log, m, s.id)
      && BookingCount(out.1.log, s.id) == BookingCount(st.log, s.id) + 1
      && BookingCount(out.1.log, s.id) <= s.maxParticipants
      && (forall other :: other != s.id ==> BookingCount(out.1.log, other) == BookingCount(st.log, other))
  {
    if !Truthy(request) then (MissingSessionId, st)
    else match FindSession(st.sessions, request.value)
      case None => (SessionNotFound, st)
      case Some(s) =>
        if BookingCount(st.log, s.id) >= s.maxParticipants then (SessionFull, st)
        else if HoldsBooking(st.log, m, s.id) then (AlreadyBooked, st)
        else
          var row := ReservationRow(st, m, s);
          var log' := st.log + [row];
          assert log'[..|log'| - 1] == st.log;
          assert log'[|log'| - 1] == row;
          (Booked, State(st.sessions, log', st.nextLogId + 1))
  }

  // ----------------------------------------------------------- cancelling

  /** Whether `r` is a row the cancel handler's DELETE removes: the given
      log id, owned by `m`, labelled as a reservation. */
  predicate CancelMatches(r: LogRow, bookingId: LogId, m: MemberId) {
    r.id == bookingId && r.member == m && r.exercise == SessionBooking
  }

  /** `log` without the rows the cancel handler's DELETE matches. */
  function DeleteMatching(log: seq<LogRow>, bookingId: LogId, m: MemberId): (r: seq<LogRow>)
    ensures |r| <= |log|
    ensures |r| == |log| <==> forall i :: 0 <= i < |log| ==> !CancelMatches(log[i], bookingId, m)
    ensures forall x :: x in r ==> x in log && !CancelMatches(x, bookingId, m)
    ensures forall i :: 0 <= i < |log| && !CancelMatches(log[i], bookingId, m) ==> log[i] in r
  {
    if log == [] then []
    else
      var last := log[|log| - 1];
      var rest := DeleteMatching(log[..|log| - 1], bookingId, m);
      if CancelMatches(last, bookingId, m) then rest else rest + [last]
  }

  lemma {:induction false} DeleteNothing(log: seq<LogRow>, bookingId: LogId, m: MemberId)
    requires forall i :: 0 <= i < |log| ==> !CancelMatches(log[i], bookingId, m)
    ensures DeleteMatching(log, bookingId, m) == log
    decreases |log|
  {
    if log != [] {
      var n := |log| - 1;
      DeleteNothing(log[..n], bookingId, m);
      assert log[..n] + [log[n]] == log;
    }
  }

  /** `s` with the element at index `k` removed. */
  function RemoveAt<T>(s: seq<T>, k: nat): (r: seq<T>)
    requires k < |s|
    ensures |r| == |s| - 1
    ensures forall i :: 0 <= i < |r| ==> r[i] == s[if i < k then i else i + 1]
  {
    s[..k] + s[k + 1..]
  }

  /** Removing an element before the last commutes with dropping the last. */
  lemma RemoveAtBeforeLast<T>(s: seq<T>, k: nat)
    requires k + 1 < |s|
    ensures RemoveAt(s, k) == RemoveAt(s[..|s| - 1], k) + [s[|s| - 1]]
  {
    var n := |s| - 1;
    assert s[..k] == s[..n][..k];
    assert s[k + 1..] == s[..n][k + 1..] + [s[n]];
  }

  lemma {:induction false} DeleteOne(log: seq<LogRow>, bookingId: LogId, m: MemberId, k: nat)
    requires k < |log| && CancelMatches(log[k], bookingId, m)
    requires forall i :: 0 <= i < |log| && i != k ==> !CancelMatches(log[i], bookingId, m)
    ensures DeleteMatching(log, bookingId, m) == RemoveAt(log, k)
    decreases |log|
  {
    var n := |log| - 1;
    var prefix := log[..n];
    forall i | 0 <= i < |prefix| && i != k ensures !CancelMatches(prefix[i], bookingId, m) {
      assert prefix[i] == log[i];
    }
    assert DeleteMatching(log, bookingId, m) == DeleteMatching(prefix, bookingId, m)
                                                + (if k == n then [] else [log[n]]);
    if k == n {
      DeleteNothing(prefix, bookingId, m);
      assert RemoveAt(log, k) == prefix;
    } else {
      DeleteOne(prefix, bookingId, m, k);
      RemoveAtBeforeLast(log, k);
    }
  }

  datatype CancelResult = Cancelled | MissingBookingId | BookingNotFound

  /** Cancel reservation `request` on behalf of member `m`: delete the rows
      with that log id that `m` owns and that are labelled as reservations,
      reporting `BookingNotFound` when none was deleted. */
  function Cancel(st: State, m: MemberId, request: Option<LogId>): (out: (CancelResult, State))
    ensures out.0 != Cancelled ==> out.1 == st
    ensures out.0 == MissingBookingId <==> !Truthy(request)
    ensures Truthy(request) ==>
      (out.0 == BookingNotFound <==> forall i :: 0 <= i < |st.log| ==> !CancelMatches(st.log[i], request.value, m))
    ensures out.0 == Cancelled ==>
      && out.1.sessions == st.sessions
      && out.1.nextLogId == st.nextLogId
      && |out.1.log| < |st.log|
      && (forall x :: x in out.1.log ==> x in st.log && !CancelMatches(x, request.value, m))
      && (forall x :: x in st.log && !CancelMatches(x, request.value, m) ==> x in out.1.log)
  {
    if !Truthy(request) then (MissingBookingId, st)
    else
      var log' := DeleteMatching(st.log, request.value, m);
      if |log'| == |st.log| then (BookingNotFound, st)
      else (Cancelled, st.(log := log'))
  }

  // ------------------------------------------------------- logging workouts

  /** The body of a workout-logging request. The keys `exercise`, `date` and
      `duration` must be present, but their value may be JSON `null`: the
      outer `Option` is the key, the inner one the value. The optional keys
      are read with `get`, which gives `None` for an absent key and for
      `null` alike. */
  datatype WorkoutRequest = WorkoutRequest(
    exercise: Option<Option<string>>,
    date: Option<Option<int>>,
    duration: Option<Option<int>>,
    calories: Option<real>,
    distance: Option<real>,
    progress: Option<string>)

  /** `MissingFields` is the 400 for an absent key; `InsertRejected` is the
      500 the database gives for a row without an exercise label. */
  datatype AddResult = Added(id: LogId) | MissingFields | InsertRejected

  /** Whether all three required keys are in the body, whatever their values. */
  predicate HasRequiredKeys(w: WorkoutRequest) {
    w.exercise.Some? && w.date.Some? && w.duration.Some?
  }

  /** Log a workout for member `m`. The row has no session, so it never
      counts as a reservation, whatever its exercise label. A `null` date or
      duration is stored as `NULL`. */
  function AddWorkout(st: State, m: MemberId, w: WorkoutRequest): (out: (AddResult, State))
    ensures out.0 == MissingFields <==> !HasRequiredKeys(w)
    ensures out.0 == InsertRejected <==> HasRequiredKeys(w) && w.exercise.value.None?
    ensures !out.0.Added? ==> out.1 == st
    ensures out.0.Added? ==>
      && out.0.id == st.nextLogId
      && out.1.sessions == st.sessions
      && out.1.nextLogId == st.nextLogId + 1
      && |out.1.log| == |st.log| + 1
      && out.1.log[..|st.log|] == st.log
      && var r := out.1.log[|st.log|];
         r.id == out.0.id && r.member == m && r.session.None?
         && Some(Some(r.exercise)) == w.exercise && Some(r.date) == w.date && Some(r.duration) == w.duration
         && r.calories == w.calories && r.distance == w.distance && r.progress == w.progress
    ensures forall sid :: BookingCount(out.1.log, sid) == BookingCount(st.log, sid)
  {
    if !HasRequiredKeys(w) then (MissingFields, st)
    else if w.exercise.value.None? then (InsertRejected, st)
    else
      var row := LogRow(st.nextLogId, m, None, w.exercise.value.value, w.date.value, w.duration.value,
                        w.calories, w.distance, w.progress);
      var log' := st.log + [row];
      assert log'[..|log'| - 1] == st.log;
      (Added(st.nextLogId), State(st.sessions, log', st.nextLogId + 1))
  }

  /** A body with every required key is logged even when its date and
      duration are `null`: the handler tests keys, not values. */
  lemma NullDateAndDurationAreLogged(st: State, m: MemberId, exercise: string)
    ensures var w := WorkoutRequest(Some(Some(exercise)), Some(None), Some(None), None, None, None);
      && AddWorkout(st, m, w).0 == Added(st.nextLogId)
      && AddWorkout(st, m, w).1.log == st.log + [LogRow(st.nextLogId, m, None, exercise, None, None, None, None, None)]
  {
    var w := WorkoutRequest(Some(Some(exercise)), Some(None), Some(None), None, None, None);
    var out := AddWorkout(st, m, w);
    assert out.1.log == out.1.log[..|st.log|] + [out.1.log[|st.log|]];
  }

  // ------------------------------------------------------------ invariants

  ghost predicate UniqueSessionIds(sessions: seq<Session>) {
    forall i, j :: 0 <= i < j < |sessions| ==> sessions[i].id != sessions[j].id
  }

  /** `L_ID` is the primary key of `WorkoutLog` and below the auto-increment counter. */
  ghost predicate LogIdsFresh(log: seq<LogRow>, nextLogId: LogId) {
    && (forall i, j :: 0 <= i < j < |log| ==> log[i].id != log[j].id)
    && (forall i :: 0 <= i < |log| ==> log[i].id < nextLogId)
  }

  /** No session holds more reservations than its capacity. */
  ghost predicate WithinCapacity(st: State) {
    forall i :: 0 <= i < |st.sessions| ==>
      BookingCount(st.log, st.sessions[i].id) <= st.sessions[i].maxParticipants
  }

  /** No member holds two reservations of the same session. */
  ghost predicate OneBookingPerMember(log: seq<LogRow>) {
    forall i, j :: 0 <= i < j < |log| && log[i].session.Some? && log[i].session == log[j].session
      && log[i].exercise == SessionBooking && log[j].exercise == SessionBooking
      ==> log[i].member != log[j].member
  }

  ghost predicate Valid(st: State) {
    && UniqueSessionIds(st.sessions)
    && LogIdsFresh(st.log, st.nextLogId)
    && WithinCapacity(st)
    && OneBookingPerMember(st.log)
  }

  lemma BookPreservesValid(st: State, m: MemberId, request: Option<SessionId>)
    requires Valid(st)
    ensures Valid(Book(st, m, request).1)
  {
    var out := Book(st, m, request);
    if out.0 == Booked {
      var s := FindSession(st.sessions, request.value).value;
      var st' := out.1;
      var n := |st.log|;
      forall i | 0 <= i < |st'.sessions|
        ensures BookingCount(st'.log, st'.sessions[i].id) <= st'.sessions[i].maxParticipants
      {
        if st.sessions[i].id == s.id {
          var k :| 0 <= k < |st.sessions| && st.sessions[k] == s;
          assert st.sessions[i] == s;
        }
      }
      forall i, j | 0 <= i < j < |st'.log| && st'.log[i].session.Some? && st'.log[i].session == st'.log[j].session
        && st'.log[i].exercise == SessionBooking && st'.log[j].exercise == SessionBooking
        ensures st'.log[i].member != st'.log[j].member
      {
        if j == n {
          assert st'.log[i] == st.log[i];
          assert IsBookingFor(st.log[i], s.id);
        }
      }
    }
  }

  /** Removing one row keeps the pairwise invariant. */
  lemma RemoveKeepsOneBookingPerMember(log: seq<LogRow>, k: nat)
    requires k < |log| && OneBookingPerMember(log)
    ensures OneBookingPerMember(RemoveAt(log, k))
  {
    var r := RemoveAt(log, k);
    forall i, j | 0 <= i < j < |r| && r[i].session.Some? && r[i].session == r[j].session
      && r[i].exercise == SessionBooking && r[j].exercise == SessionBooking
      ensures r[i].member != r[j].member
    {
      var i' := if i < k then i else i + 1;
      var j' := if j < k then j else j + 1;
      assert r[i] == log[i'] && r[j] == log[j'];
    }
  }

  /** With unique log ids, a successful cancellation deletes exactly one row;
      the session that row reserved, if any, regains exactly one seat and
      every other count is unchanged. */
  lemma CancelFreesOneSeat(st: State, m: MemberId, request: Option<LogId>) returns (k: nat)
    requires LogIdsFresh(st.log, st.nextLogId)
    requires Cancel(st, m, request).0 == Cancelled
    ensures k < |st.log| && CancelMatches(st.log[k], request.value, m)
    ensures Cancel(st, m, request).1.log == RemoveAt(st.log, k)
    ensures forall sid :: BookingCount(Cancel(st, m, request).1.log, sid)
                          + (if IsBookingFor(st.log[k], sid) then 1 else 0)
                          == BookingCount(st.log, sid)
  {
    var bid := request.value;
    assert Cancel(st, m, request).1.log == DeleteMatching(st.log, bid, m);
    k :| 0 <= k < |st.log| && CancelMatches(st.log[k], bid, m);
    OnlyOneMatch(st.log, st.nextLogId, bid, m, k);
    DeleteOne(st.log, bid, m, k);
    RemovalCounts(st.log, k);
  }

  /** With unique log ids, a matching row is the only one. */
  lemma OnlyOneMatch(log: seq<LogRow>, nextLogId: LogId, bookingId: LogId, m: MemberId, k: nat)
    requires LogIdsFresh(log, nextLogId) && k < |log| && CancelMatches(log[k], bookingId, m)
    ensures forall i :: 0 <= i < |log| && i != k ==> !CancelMatches(log[i], bookingId, m)
  {
    forall i | 0 <= i < |log| && i != k ensures log[i].id != log[k].id {
      if i < k {
        assert log[i].id != log[k].id;
      } else {
        assert log[k].id != log[i].id;
      }
    }
  }

  /** Removing row `k` lowers exactly the count of the session it books. */
  lemma RemovalCounts(log: seq<LogRow>, k: nat)
    requires k < |log|
    ensures forall sid :: BookingCount(RemoveAt(log, k), sid) + (if IsBookingFor(log[k], sid) then 1 else 0)
                          == BookingCount(log, sid)
  {
    forall sid
      ensures BookingCount(RemoveAt(log, k), sid) + (if IsBookingFor(log[k], sid) then 1 else 0)
              == BookingCount(log, sid)
    {
      BookingCountRemoveAt(log, k, sid);
    }
  }

  lemma BookingCountRemoveAt(log: seq<LogRow>, k: nat, sid: SessionId)
    requires k < |log|
    ensures BookingCount(RemoveAt(log, k), sid) + (if IsBookingFor(log[k], sid) then 1 else 0)
            == BookingCount(log, sid)
  {
    var a, b := log[..k], log[k + 1..];
    assert log == a + [log[k]] + b;
    assert RemoveAt(log, k) == a + b;
    BookingCountConcat(a + [log[k]], b, sid);
    BookingCountConcat(a, [log[k]], sid);
    BookingCountConcat(a, b, sid);
    assert [log[k]][..0] == [];
  }

  lemma RemoveKeepsLogIdsFresh(log: seq<LogRow>, nextLogId: LogId, k: nat)
    requires k < |log| && LogIdsFresh(log, nextLogId)
    ensures LogIdsFresh(RemoveAt(log, k), nextLogId)
  {
    var r := RemoveAt(log, k);
    forall i, j | 0 <= i < j < |r| ensures r[i].id != r[j].id {
      var i' := if i < k then i else i + 1;
      var j' := if j < k then j else j + 1;
      assert r[i] == log[i'] && r[j] == log[j'];
    }
  }

  lemma RemoveKeepsWithinCapacity(st: State, k: nat)
    requires k < |st.log| && WithinCapacity(st)
    ensures WithinCapacity(st.(log := RemoveAt(st.log, k)))
  {
    forall i | 0 <= i < |st.sessions|
      ensures BookingCount(RemoveAt(st.log, k), st.sessions[i].id) <= st.sessions[i].maxParticipants
    {
      BookingCountRemoveAt(st.log, k, st.sessions[i].id);
    }
  }

  lemma CancelPreservesValid(st: State, m: MemberId, request: Option<LogId>)
    requires Valid(st)
    ensures Valid(Cancel(st, m, request).1)
  {
    var out := Cancel(st, m, request);
    if out.0 == Cancelled {
      var k := CancelFreesOneSeat(st, m, request);
      assert out.1 == st.(log := RemoveAt(st.log, k));
      RemoveKeepsOneBookingPerMember(st.log, k);
      RemoveKeepsLogIdsFresh(st.log, st.nextLogId, k);
      RemoveKeepsWithinCapacity(st, k);
    }
  }

  lemma AddWorkoutPreservesValid(st: State, m: MemberId, w: WorkoutRequest)
    requires Valid(st)
    ensures Valid(AddWorkout(st, m, w).1)
  {
    var out := AddWorkout(st, m, w);
    if out.0.Added? {
      var log' := out.1.log;
      forall i, j | 0 <= i < j < |log'| && log'[i].session.Some? && log'[i].session == log'[j].session
        && log'[i].exercise == SessionBooking && log'[j].exercise == SessionBooking
        ensures log'[i].member != log'[j].member
      {
        assert j < |st.log|;
        assert log'[i] == st.log[i] && log'[j] == st.log[j];
      }
      forall i, j | 0 <= i < j < |log'| ensures log'[i].id != log'[j].id {
        if j < |st.log| {
          assert log'[i] == st.log[i] && log'[j] == st.log[j];
        } else {
          assert log'[i] == st.log[i];
        }
      }
      forall i | 0 <= i < |log'| ensures log'[i].id < out.1.nextLogId {
        if i < |st.log| {
          assert log'[i] == st.log[i];
        }
      }
    }
  }

  // ------------------------------------------------------ request histories

  /** A request to one of the three handlers, made by a logged-in member. */
  datatype Request =
    | BookRequest(member: MemberId, session: Option<SessionId>)
    | CancelRequest(member: MemberId, booking: Option<LogId>)
    | LogWorkout(member: MemberId, workout: WorkoutRequest)

  function Handle(st: State, req: Request): State {
    match req
    case BookRequest(m, s) => Book(st, m, s).1
    case CancelRequest(m, b) => Cancel(st, m, b).1
    case LogWorkout(m, w) => AddWorkout(st, m, w).1
  }

  /** The state after handling `reqs` one at a time, in order. */
  function Replay(st: State, reqs: seq<Request>): State
    decreases |reqs|
  {
    if reqs == [] then st else Replay(Handle(st, reqs[0]), reqs[1..])
  }

  /** Any sequence of requests, each handled atomically, keeps every session
      within capacity and every member to one reservation per session. */
  lemma {:induction false} ReplayPreservesValid(st: State, reqs: seq<Request>)
    requires Valid(st)
    ensures Valid(Replay(st, reqs))
    ensures forall i :: 0 <= i < |Replay(st, reqs).sessions| ==>
      BookingCount(Replay(st, reqs).log, Replay(st, reqs).sessions[i].id)
        <= Replay(st, reqs).sessions[i].maxParticipants
    decreases |reqs|
  {
    if reqs != [] {
      match reqs[0] {
      case BookRequest(m, s) => BookPreservesValid(st, m, s);
      case CancelRequest(m, b) => CancelPreservesValid(st, m, b);
      case LogWorkout(m, w) => AddWorkoutPreservesValid(st, m, w);
      }
      ReplayPreservesValid(Handle(st, reqs[0]), reqs[1..]);
    }
  }

  /** Two members racing for the last seat of a session, handled one after
      the other: the first is booked and the second is told it is full. */
  lemma LastSeatGoesToOne(st: State, a: MemberId, b: MemberId, sid: SessionId)
    requires Valid(st) && sid != 0
    requires FindSession(st.sessions, sid).Some?
    requires BookingCount(st.log, sid) + 1 == FindSession(st.sessions, sid).value.maxParticipants
    requires !HoldsBooking(st.log, a, sid)
    ensures Book(st, a, Some(sid)).0 == Booked
    ensures Book(Book(st, a, Some(sid)).1, b, Some(sid)).0 == SessionFull
  {
    var st' := Book(st, a, Some(sid)).1;
    assert st'.sessions == st.sessions;
  }

  /** A session found in a state within capacity has no more reservations
      than seats. */
  lemma FoundWithinCapacity(st: State, sid: SessionId)
    requires WithinCapacity(st) && FindSession(st.sessions, sid).Some?
    ensures BookingCount(st.log, sid) <= FindSession(st.sessions, sid).value.maxParticipants
  {
    var s := FindSession(st.sessions, sid).value;
    var j :| 0 <= j < |st.sessions| && st.sessions[j] == s;
  }

  /** Removing a row never creates a reservation. */
  lemma RemoveKeepsNoBooking(log: seq<LogRow>, k: nat, b: MemberId, sid: SessionId)
    requires k < |log| && !HoldsBooking(log, b, sid)
    ensures !HoldsBooking(RemoveAt(log, k), b, sid)
  {
    var r := RemoveAt(log, k);
    forall x | 0 <= x < |r| ensures !(r[x].member == b && IsBookingFor(r[x], sid)) {
      assert r[x] == log[if x < k then x else x + 1];
    }
  }

  /** Cancelling a reservation of a full session lets another member book it. */
  lemma CancelReopensSeat(st: State, a: MemberId, b: MemberId, bookingId: LogId, sid: SessionId)
    requires Valid(st) && sid != 0 && bookingId != 0
    requires Book(st, b, Some(sid)).0 == SessionFull
    requires !HoldsBooking(st.log, b, sid)
    requires exists i :: 0 <= i < |st.log| && st.log[i].id == bookingId
               && st.log[i].member == a && IsBookingFor(st.log[i], sid)
    ensures Cancel(st, a, Some(bookingId)).0 == Cancelled
    ensures Book(Cancel(st, a, Some(bookingId)).1, b, Some(sid)).0 == Booked
  {
    var i :| 0 <= i < |st.log| && st.log[i].id == bookingId && st.log[i].member == a && IsBookingFor(st.log[i], sid);
    assert CancelMatches(st.log[i], bookingId, a);
    var k := CancelFreesOneSeat(st, a, Some(bookingId));
    assert k == i;
    var st' := Cancel(st, a, Some(bookingId)).1;
    FoundWithinCapacity(st, sid);
    RemoveKeepsNoBooking(st.log, k, b, sid);
    assert st'.sessions == st.sessions;
  }
}

=== FILE: frontend.dfy ===
/** The two pieces of browser logic that decide what is shown: HTML
    escaping of database text before it is placed in markup, and the unread
    badge on the notification bell. */
module Frontend {
  import opened Wrappers
  import opened Records
  import Metrics

  // ------------------------------------------------------------- escaping

  /** The characters the escaper replaces. */
  predicate IsSpecial(c: char) {
    c == '&' || c == '<' || c == '>' || c == '"' || c == '\''
  }

  /** The text a character is written as. */
  function Entity(c: char): (r: string)
    ensures IsSpecial(c) ==> |r| > 1 && r[0] == '&'
    ensures !IsSpecial(c) ==> r == [c]
    ensures Inert(r)
  {
    match c
    case '&' => "&amp;"
    case '<' => "&lt;"
    case '>' => "&gt;"
    case '"' => "&quot;"
    case '\'' => "&#039;"
    case _ => [c]
  }

  /** Whether `s` contains none of the characters that open markup or end an
      attribute value. */
  predicate Inert(s: string) {
    forall i :: 0 <= i < |s| ==> s[i] != '<' && s[i] != '>' && s[i] != '"' && s[i] != '\''
  }

  predicate HasSpecial(s: string) {
    exists i :: 0 <= i < |s| && IsSpecial(s[i])
  }

  /** A text has a special character when its first character is one or
      the rest has one. */
  lemma HasSpecialCons(s: string)
    requires s != []
    ensures HasSpecial(s) <==> IsSpecial(s[0]) || HasSpecial(s[1..])
  {
    if HasSpecial(s[1..]) {
      var i :| 0 <= i < |s[1..]| && IsSpecial(s[1..][i]);
      assert s[i + 1] == s[1..][i];
    }
    if HasSpecial(s) && !IsSpecial(s[0]) {
      var i :| 0 <= i < |s| && IsSpecial(s[i]);
      assert s[1..][i - 1] == s[i];
    }
  }

  /** Two inert texts put together are inert. */
  lemma InertConcat(a: string, b: string)
    requires Inert(a) && Inert(b)
    ensures Inert(a + b)
  {
    forall i | 0 <= i < |a + b| ensures (a + b)[i] != '<' && (a + b)[i] != '>' && (a + b)[i] != '"' && (a + b)[i] != '\'' {
      if i < |a| {
        assert (a + b)[i] == a[i];
      } else {
        assert (a + b)[i] == b[i - |a|];
      }
    }
  }

  /** Every special character of `s` replaced by its entity. */
  function EscapeText(s: string): (r: string)
    ensures Inert(r)
    ensures |r| >= |s|
    ensures !HasSpecial(s) <==> r == s
    ensures HasSpecial(s) <==> |r| > |s|
  {
    if s == [] then []
    else
      var rest := EscapeText(s[1..]);
      HasSpecialCons(s);
      InertConcat(Entity(s[0]), rest);
      assert s == [s[0]] + s[1..];
      Entity(s[0]) + rest
  }

  /** `escapeHtml`: a falsy argument (absent or empty) gives the empty text. */
  function EscapeHtml(text: Option<string>): (r: string)
    ensures text.None? ==> r == ""
    ensures text.Some? ==> r == EscapeText(text.value)
  {
    match text
    case None => ""
    case Some(s) => if s == "" then "" else EscapeText(s)
  }

  /** Escaping works character by character. */
  lemma {:induction false} EscapeConcat(a: string, b: string)
    ensures EscapeText(a + b) == EscapeText(a) + EscapeText(b)
  {
    if a == [] {
      assert a + b == b;
    } else {
      assert (a + b)[0] == a[0] && (a + b)[1..] == a[1..] + b;
      EscapeConcat(a[1..], b);
      var e := Entity(a[0]);
      assert e + (EscapeText(a[1..]) + EscapeText(b)) == (e + EscapeText(a[1..])) + EscapeText(b);
    }
  }

  /** Reads the entities written by `Entity` back as characters. */
  function Unescape(r: string): string
    decreases |r|
  {
    if r == [] then []
    else if r[0] != '&' then [r[0]] + Unescape(r[1..])
    else if |r| >= 5 && r[..5] == "&amp;" then "&" + Unescape(r[5..])
    else if |r| >= 4 && r[..4] == "&lt;" then "<" + Unescape(r[4..])
    else if |r| >= 4 && r[..4] == "&gt;" then ">" + Unescape(r[4..])
    else if |r| >= 6 && r[..6] == "&quot;" then "\"" + Unescape(r[6..])
    else if |r| >= 6 && r[..6] == "&#039;" then "'" + Unescape(r[6..])
    else [r[0]] + Unescape(r[1..])
  }

  /** Unescape reads an entity followed by any text back as its character. */
  lemma UnescapeEntity(c: char, rest: string)
    ensures Unescape(Entity(c) + rest) == [c] + Unescape(rest)
  {
    var e := Entity(c);
    var t := e + rest;
    assert t[|e|..] == rest;
    assert t[..|e|] == e;
    if !IsSpecial(c) {
      assert t[0] == c && t[1..] == rest;
    } else {
      assert t[0] == '&' && t[1] == e[1];
    }
  }

  /** Escaping loses nothing: the original text can be read back. */
  lemma {:induction false} UnescapeEscape(s: string)
    ensures Unescape(EscapeText(s)) == s
  {
    if s != [] {
      UnescapeEscape(s[1..]);
      UnescapeEntity(s[0], EscapeText(s[1..]));
      assert s == [s[0]] + s[1..];
    }
  }

  /** Escaping is injective: different texts never look the same on the page. */
  lemma EscapeInjective(a: string, b: string)
    requires EscapeText(a) == EscapeText(b)
    ensures a == b
  {
    UnescapeEscape(a);
    UnescapeEscape(b);
  }

  // ---------------------------------------------------------- unread badge

  /** The `IsRead` value of a notification as the browser receives it:
      JSON `null`, or the integer MySQL stores a boolean as. */
  datatype ReadFlag = NullFlag | Flag(v: int)

  /** JavaScript's `!n.IsRead`. */
  predicate IsUnread(f: ReadFlag) {
    f.NullFlag? || f.v == 0
  }

  /** The number of unread notifications in a feed. */
  function UnreadCount(feed: seq<ReadFlag>): (n: nat)
    ensures n <= |feed|
    ensures n == 0 <==> forall i :: 0 <= i < |feed| ==> !IsUnread(feed[i])
    ensures n == |feed| <==> forall i :: 0 <= i < |feed| ==> IsUnread(feed[i])
    decreases |feed|
  {
    if feed == [] then 0
    else
      var k := |feed| - 1;
      var m := UnreadCount(feed[..k]);
      assert forall i :: 0 <= i < k ==> feed[..k][i] == feed[i];
      m + (if IsUnread(feed[k]) then 1 else 0)
  }

  /** The flag a stored notification is sent with. */
  function FlagOf(n: Notification): ReadFlag {
    Flag(if n.isRead then 1 else 0)
  }

  /** The unread notifications of the table, kept in order. */
  function UnreadNotices(ns: seq<Notification>): (r: seq<Notification>)
    ensures forall x :: x in r <==> x in ns && !x.isRead
    decreases |ns|
  {
    if ns == [] then []
    else
      var k := |ns| - 1;
      var rest := UnreadNotices(ns[..k]);
      assert ns == ns[..k] + [ns[k]];
      if ns[k].isRead then rest else rest + [ns[k]]
  }

  /** The flags of the notifications as the browser receives them, in order. */
  function FeedOf(ns: seq<Notification>): (feed: seq<ReadFlag>)
    ensures |feed| == |ns|
    ensures forall i :: 0 <= i < |ns| ==> feed[i] == FlagOf(ns[i])
    decreases |ns|
  {
    if ns == [] then [] else FeedOf(ns[..|ns| - 1]) + [FlagOf(ns[|ns| - 1])]
  }

  /** For a feed sent from a list of notifications, the badge counts exactly
      the unread ones. */
  lemma {:induction false} UnreadCountMatchesTable(ns: seq<Notification>)
    ensures UnreadCount(FeedOf(ns)) == |UnreadNotices(ns)|
    decreases |ns|
  {
    if ns != [] {
      var k := |ns| - 1;
      UnreadCountMatchesTable(ns[..k]);
      assert FeedOf(ns)[..k] == FeedOf(ns[..k]);
    }
  }

  /** The number of unread notifications, counted from the front. */
  function CountUnread(s: seq<Notification>): nat {
    if s == [] then 0 else (if s[0].isRead then 0 else 1) + CountUnread(s[1..])
  }

  lemma {:induction false} CountUnreadConcat(a: seq<Notification>, b: seq<Notification>)
    ensures CountUnread(a + b) == CountUnread(a) + CountUnread(b)
  {
    if a == [] {
      assert a + b == b;
    } else {
      assert (a + b)[0] == a[0] && (a + b)[1..] == a[1..] + b;
      CountUnreadConcat(a[1..], b);
    }
  }

  /** Counting from the front agrees with the unread list built from the back. */
  lemma {:induction false} CountUnreadIsUnreadNotices(s: seq<Notification>)
    ensures CountUnread(s) == |UnreadNotices(s)|
    decreases |s|
  {
    if s != [] {
      var k := |s| - 1;
      CountUnreadIsUnreadNotices(s[..k]);
      assert s == s[..k] + [s[k]];
      CountUnreadConcat(s[..k], [s[k]]);
      assert [s[k]][1..] == [];
    }
  }

  // ------------------------------------------------------- the feed query

  /** How many notifications the feed query returns at most. */
  const FeedLimit: nat := 10

  /** The notifications of member `m`, in table order. */
  function MemberNotices(ns: seq<Notification>, m: MemberId): (r: seq<Notification>)
    ensures forall x :: x in r <==> x in ns && x.member == m
    ensures |r| <= |ns|
  {
    if ns == [] then []
    else
      var rest := MemberNotices(ns[1..], m);
      assert ns == [ns[0]] + ns[1..];
      if ns[0].member == m then [ns[0]] + rest else rest
  }

  predicate NewestFirst(s: seq<Notification>) {
    forall i, j :: 0 <= i < j < |s| ==> s[i].createdAt >= s[j].createdAt
  }

  /** A notification no older than everything in a newest-first sequence
      can be put in front of it. */
  lemma NewestFirstCons(h: Notification, s: seq<Notification>)
    requires NewestFirst(s) && forall y :: y in s ==> h.createdAt >= y.createdAt
    ensures NewestFirst([h] + s)
  {
    var r := [h] + s;
    forall i, j | 0 <= i < j < |r| ensures r[i].createdAt >= r[j].createdAt {
      assert r[j] == s[j - 1];
      if i > 0 {
        assert r[i] == s[i - 1];
      }
    }
  }

  /** `x` placed into the newest-first sequence `s` before the first
      notification that is not newer than it. */
  function InsertByTime(x: Notification, s: seq<Notification>): (r: seq<Notification>)
    requires NewestFirst(s)
    ensures NewestFirst(r)
    ensures multiset(r) == multiset(s) + multiset{x}
    ensures forall y :: y in r ==> y == x || y in s
  {
    if s == [] then [x]
    else if x.createdAt >= s[0].createdAt then
      NewestFirstCons(x, s);
      [x] + s
    else
      assert s == [s[0]] + s[1..];
      var rest := InsertByTime(x, s[1..]);
      HeadStaysFirst(x, s, rest);
      [s[0]] + rest
  }

  /** The head of `s`, newer than `x`, stays in front once `x` is inserted
      into the rest. */
  lemma HeadStaysFirst(x: Notification, s: seq<Notification>, rest: seq<Notification>)
    requires s != [] && NewestFirst(s) && x.createdAt < s[0].createdAt
    requires NewestFirst(rest) && forall y :: y in rest ==> y == x || y in s[1..]
    ensures NewestFirst([s[0]] + rest)
  {
    forall y | y in rest ensures s[0].createdAt >= y.createdAt {
      if y != x {
        var k :| 0 <= k < |s[1..]| && s[1..][k] == y;
        assert s[k + 1] == y;
      }
    }
    NewestFirstCons(s[0], rest);
  }

  /** Inserting a notification adds one to the unread count exactly when it
      is unread. */
  lemma {:induction false} InsertCountsUnread(x: Notification, s: seq<Notification>)
    requires NewestFirst(s)
    ensures CountUnread(InsertByTime(x, s)) == CountUnread(s) + (if x.isRead then 0 else 1)
  {
    if s == [] {
      assert [x][1..] == [];
    } else if x.createdAt >= s[0].createdAt {
      assert ([x] + s)[1..] == s;
    } else {
      var rest := InsertByTime(x, s[1..]);
      InsertCountsUnread(x, s[1..]);
      assert ([s[0]] + rest)[1..] == rest;
    }
  }

  /** `ORDER BY CreatedAt DESC`, by insertion. */
  function SortNewestFirst(s: seq<Notification>): (r: seq<Notification>)
    ensures NewestFirst(r)
    ensures multiset(r) == multiset(s)
    ensures CountUnread(r) == CountUnread(s)
  {
    if s == [] then []
    else
      assert s == [s[0]] + s[1..];
      InsertCountsUnread(s[0], SortNewestFirst(s[1..]));
      InsertByTime(s[0], SortNewestFirst(s[1..]))
  }

  /** Sorting keeps exactly the member's notifications. */
  lemma SortedNoticesAreMembers(ns: seq<Notification>, m: MemberId)
    ensures forall y :: y in SortNewestFirst(MemberNotices(ns, m)) <==> y in ns && y.member == m
  {
    var mine := MemberNotices(ns, m);
    var sorted := SortNewestFirst(mine);
    assert forall y :: y in sorted <==> y in multiset(sorted);
    assert forall y :: y in mine <==> y in multiset(mine);
  }

  /** What `get_notifications` sends: for a member, that member's
      notifications newest first, at most `FeedLimit` of them; for any
      other role, nothing. */
  function NotificationsFor(ns: seq<Notification>, m: MemberId, isMember: bool): (r: seq<Notification>)
    ensures !isMember ==> r == []
    ensures |r| <= FeedLimit
    ensures NewestFirst(r)
    ensures forall x :: x in r ==> x in ns && x.member == m
  {
    if !isMember then []
    else
      var sorted := SortNewestFirst(MemberNotices(ns, m));
      SortedNoticesAreMembers(ns, m);
      sorted[..Metrics.Min(FeedLimit, |sorted|)]
  }

  /** The feed is the newest-first list of the member's notifications, cut
      to the limit. */
  lemma FeedIsSortedPrefix(ns: seq<Notification>, m: MemberId)
    ensures var sorted := SortNewestFirst(MemberNotices(ns, m));
      && |sorted| == |MemberNotices(ns, m)|
      && NotificationsFor(ns, m, true) == sorted[..Metrics.Min(FeedLimit, |sorted|)]
  {
    var mine := MemberNotices(ns, m);
    assert |multiset(SortNewestFirst(mine))| == |multiset(mine)|;
  }

  /** The feed holds as many notifications as the member has, up to the limit. */
  lemma FeedLength(ns: seq<Notification>, m: MemberId)
    ensures |NotificationsFor(ns, m, true)| == Metrics.Min(FeedLimit, |MemberNotices(ns, m)|)
  {
    FeedIsSortedPrefix(ns, m);
  }

  /** A member with at most `FeedLimit` notifications is sent all of them,
      with the same number unread. */
  lemma FewNoticesAllShown(ns: seq<Notification>, m: MemberId)
    requires |MemberNotices(ns, m)| <= FeedLimit
    ensures multiset(NotificationsFor(ns, m, true)) == multiset(MemberNotices(ns, m))
    ensures CountUnread(NotificationsFor(ns, m, true)) == CountUnread(MemberNotices(ns, m))
  {
    FeedIsSortedPrefix(ns, m);
    var sorted := SortNewestFirst(MemberNotices(ns, m));
    assert sorted[..|sorted|] == sorted;
  }

  /** A notification of the member left out of the feed is no newer than
      any it shows, and is left out only when the member has more than
      `FeedLimit`. */
  lemma OmittedAreOlder(ns: seq<Notification>, m: MemberId, x: Notification)
    requires x in ns && x.member == m && x !in NotificationsFor(ns, m, true)
    ensures |MemberNotices(ns, m)| > FeedLimit
    ensures forall y :: y in NotificationsFor(ns, m, true) ==> y.createdAt >= x.createdAt
  {
    FeedIsSortedPrefix(ns, m);
    SortedNoticesAreMembers(ns, m);
    var sorted := SortNewestFirst(MemberNotices(ns, m));
    CutFromNewestFirst(sorted, Metrics.Min(FeedLimit, |sorted|), x);
  }

  /** An entry of a newest-first sequence missing from its first `n` entries
      comes after all of them and is no newer than any. */
  lemma CutFromNewestFirst(s: seq<Notification>, n: nat, x: Notification)
    requires NewestFirst(s) && n <= |s| && x in s && x !in s[..n]
    ensures n < |s|
    ensures forall y :: y in s[..n] ==> y.createdAt >= x.createdAt
  {
    var k :| 0 <= k < |s| && s[k] == x;
    assert forall i :: 0 <= i < n ==> s[..n][i] == s[i];
  }

  /** The bell shows at most `FeedLimit` unread notifications, those of the
      feed; with at most `FeedLimit` notifications of the member, it counts
      all of the member's unread ones. */
  lemma BadgeCountsMembersUnread(ns: seq<Notification>, m: MemberId)
    ensures UnreadCount(FeedOf(NotificationsFor(ns, m, true))) <= FeedLimit
    ensures UnreadCount(FeedOf(NotificationsFor(ns, m, true))) == |UnreadNotices(NotificationsFor(ns, m, true))|
    ensures |MemberNotices(ns, m)| <= FeedLimit ==>
      UnreadCount(FeedOf(NotificationsFor(ns, m, true))) == |UnreadNotices(MemberNotices(ns, m))|
  {
    var r := NotificationsFor(ns, m, true);
    UnreadCountMatchesTable(r);
    if |MemberNotices(ns, m)| <= FeedLimit {
      FewNoticesAllShown(ns, m);
      CountUnreadIsUnreadNotices(r);
      CountUnreadIsUnreadNotices(MemberNotices(ns, m));
    }
  }

  /** The badge next to the bell. */
  datatype Badge = Hidden | Shown(count: nat)

  /** `loadNotifications`: with no response the badge is left alone, with no
      badge element there is nothing to update, and otherwise the badge shows
      the unread count when it is positive and is hidden when it is zero. */
  function LoadNotifications(response: Option<seq<ReadFlag>>, badge: Option<Badge>): (r: Option<Badge>)
    ensures response.None? || badge.None? ==> r == badge
    ensures response.Some? && badge.Some? ==>
      r.Some? && (r.value.Shown? <==> exists i :: 0 <= i < |response.value| && IsUnread(response.value[i]))
    ensures response.Some? && badge.Some? && r.value.Shown? ==>
      0 < r.value.count <= |response.value| && r.value.count == UnreadCount(response.value)
  {
    match (response, badge)
    case (Some(feed), Some(_)) =>
      var n := UnreadCount(feed);
      Some(if n > 0 then Shown(n) else Hidden)
    case _ => badge
  }
}

=== FILE: keyword_router.dfy ===
/** The rule-based assistant reply: the question is matched, case-sensitively
    and as plain substrings, against eight keyword groups in a fixed order;
    the first group with a hit picks the kind of answer, and a question that
    hits none gets the greeting. */
module KeywordRouter {
  import opened Wrappers
  import opened Records
  import opened Metrics

  // ---------------------------------------------------------- substrings

  /** Whether `word` occurs in `text` at position `i`. */
  predicate OccursAt(text: string, word: string, i: int) {
    0 <= i && i + |word| <= |text| && text[i..i + |word|] == word
  }

  /** Python's `word in text` for strings. */
  function Contains(text: string, word: string): (r: bool)
    ensures r <==> exists i :: OccursAt(text, word, i)
    decreases |text|
  {
    if |word| > |text| then false
    else if text[..|word|] == word then
      assert OccursAt(text, word, 0);
      true
    else
      ShiftOccurrences(text, word);
      Contains(text[1..], word)
  }

  /** The occurrences in `text` after its first position are those of
      `text[1..]`, moved one place. */
  lemma ShiftOccurrences(text: string, word: string)
    requires |text| > 0
    ensures (exists i :: OccursAt(text[1..], word, i)) <==> (exists i :: 1 <= i && OccursAt(text, word, i))
  {
    if exists i :: OccursAt(text[1..], word, i) {
      var i :| OccursAt(text[1..], word, i);
      assert text[1..][i..i + |word|] == text[i + 1..i + 1 + |word|];
      assert OccursAt(text, word, i + 1);
    }
    if exists i :: 1 <= i && OccursAt(text, word, i) {
      var i :| 1 <= i && OccursAt(text, word, i);
      assert text[i..i + |word|] == text[1..][i - 1..i - 1 + |word|];
      assert OccursAt(text[1..], word, i - 1);
    }
  }

  /** A word that occurs inside a longer one is found wherever that is. */
  lemma {:induction false} ContainsTransitive(text: string, outer: string, inner: string)
    requires Contains(text, outer) && Contains(outer, inner)
    ensures Contains(text, inner)
  {
    var i :| OccursAt(text, outer, i);
    var j :| OccursAt(outer, inner, j);
    forall k | 0 <= k < |inner| ensures text[i + j + k] == inner[k] {
      assert inner[k] == outer[j..j + |inner|][k] == outer[j + k];
      assert outer[j + k] == text[i..i + |outer|][j + k] == text[i + j + k];
    }
    assert text[i + j..i + j + |inner|] == inner;
    assert OccursAt(text, inner, i + j);
  }

  // ----------------------------------------------------------- routing

  datatype Topic = ProgressTopic | WeightTopic | WorkoutTopic | SessionTopic | SleepTopic | CalorieTopic | GoalTopic | MembershipTopic | GreetingTopic

  /** The keyword groups in the order they are tried. */
  const Groups: seq<(Topic, seq<string>)> := [
    (ProgressTopic, ["progress", "doing", "performance", "improvement"]),
    (WeightTopic, ["weight", "lose", "gain", "body"]),
    (WorkoutTopic, ["workout", "exercise", "train", "routine"]),
    (SessionTopic, ["session", "class", "trainer", "book"]),
    (SleepTopic, ["sleep", "rest", "recovery"]),
    (CalorieTopic, ["calorie", "burn", "diet", "nutrition"]),
    (GoalTopic, ["goal", "target", "aim", "plan"]),
    (MembershipTopic, ["membership", "renew", "upgrade", "plan"])
  ]

  predicate MentionsAny(q: string, words: seq<string>) {
    exists w :: w in words && Contains(q, w)
  }

  /** Whether `q` hits group `i` and none before it. */
  predicate FirstHit(q: string, i: int) {
    0 <= i < |Groups| && MentionsAny(q, Groups[i].1) && forall j :: 0 <= j < i ==> !MentionsAny(q, Groups[j].1)
  }

  function RouteFrom(q: string, i: nat): (t: Topic)
    requires forall j :: 0 <= j < i && j < |Groups| ==> !MentionsAny(q, Groups[j].1)
    ensures t == GreetingTopic <==> forall j :: i <= j < |Groups| ==> !MentionsAny(q, Groups[j].1)
    ensures t != GreetingTopic ==> exists j :: i <= j && FirstHit(q, j) && Groups[j].0 == t
    decreases |Groups| - i
  {
    if i >= |Groups| then GreetingTopic
    else if MentionsAny(q, Groups[i].1) then
      assert FirstHit(q, i);
      Groups[i].0
    else RouteFrom(q, i + 1)
  }

  /** The kind of answer question `q` gets. */
  function Route(q: string): (t: Topic)
    ensures t == GreetingTopic <==> forall j :: 0 <= j < |Groups| ==> !MentionsAny(q, Groups[j].1)
    ensures t != GreetingTopic ==> exists j :: FirstHit(q, j) && Groups[j].0 == t
  {
    RouteFrom(q, 0)
  }

  /** The group index of each non-greeting topic. */
  function Position(t: Topic): nat {
    match t
    case ProgressTopic => 0
    case WeightTopic => 1
    case WorkoutTopic => 2
    case SessionTopic => 3
    case SleepTopic => 4
    case CalorieTopic => 5
    case GoalTopic => 6
    case MembershipTopic => 7
    case GreetingTopic => 8
  }

  /** The group a question first hits comes no later than any it hits. */
  lemma FirstHitComesFirst(q: string, j: int, i: int)
    requires FirstHit(q, j) && 0 <= i < |Groups| && MentionsAny(q, Groups[i].1)
    ensures j <= i
  {
  }

  /** The first group `q` hits decides its topic: a question hitting group
      `i` is routed to group `i` or to an earlier one. */
  lemma RouteIsFirstHit(q: string, i: nat)
    requires i < |Groups| && MentionsAny(q, Groups[i].1)
    ensures Route(q) != GreetingTopic && Position(Route(q)) <= i
    ensures FirstHit(q, Position(Route(q))) && Groups[Position(Route(q))].0 == Route(q)
  {
    var j :| FirstHit(q, j) && Groups[j].0 == Route(q);
    FirstHitComesFirst(q, j, i);
    PositionOfGroup(j);
  }

  /** Each group's topic sits at that group's index. */
  lemma PositionOfGroup(j: int)
    requires 0 <= j < |Groups|
    ensures Position(Groups[j].0) == j
  {
    if j == 0 {} else if j == 1 {} else if j == 2 {} else if j == 3 {}
    else if j == 4 {} else if j == 5 {} else if j == 6 {} else {}
  }

  /** "plan" sits in both the goal and the membership group, and the goal
      group is tried first, so a question containing "plan" never gets the
      membership answer. */
  lemma PlanNeverReachesMembership(q: string)
    requires Contains(q, "plan")
    ensures Route(q) != MembershipTopic && Route(q) != GreetingTopic
  {
    assert "plan" in Groups[6].1;
    RouteIsFirstHit(q, 6);
  }

  /** "trainer" contains "train", a workout keyword, so a question with
      "trainer" never gets the sessions answer through that keyword: it is
      answered by the workout group or an earlier one. */
  lemma TrainerRoutesToWorkoutOrEarlier(q: string)
    requires Contains(q, "trainer")
    ensures Position(Route(q)) <= Position(WorkoutTopic)
  {
    assert OccursAt("trainer", "train", 0);
    ContainsTransitive(q, "trainer", "train");
    assert "train" in Groups[2].1;
    RouteIsFirstHit(q, 2);
  }

  // ----------------------------------------------------------- answers

  /** What each branch reports, before it is formatted as text. */
  datatype Reply =
    | ProgressAnswer(workouts: nat, avgDuration: real, totalCalories: real, latest: Option<HealthSample>, onTrack: bool)
    | WeightAnswer(latest: Option<HealthSample>, amount: real, lost: bool)
    | NeedWeightData
    | WorkoutAnswer(variety: seq<string>, needsVariety: bool)
    | SessionsAnswer(shown: seq<UpcomingSession>)
    | NoSessions
    | SleepAnswer(sleep: Option<Option<Number>>, onTrack: bool)
    | CalorieAnswer(totalCalories: real, perWorkout: real)
    | GoalAnswer(workouts: nat)
    | MembershipAnswer(tier: string, joinDate: int)
    | GreetingAnswer(name: string, workouts: nat, latest: Option<HealthSample>, avgDuration: real)

  /** The exceptions a branch can raise. */
  datatype RouterError = ZeroDivision | MissingWeight | MissingDate

  /** Workouts in the window needed for the encouraging progress message. */
  const OnTrackWorkouts: nat := 12

  /** Distinct exercises below which more variety is suggested. */
  const VarietyTarget: nat := 3

  /** Hours of sleep counted as on track. */
  const SleepTarget: int := 7

  function Abs(x: real): real {
    if x < 0.0 then -x else x
  }

  /** The newest sample; `hs` is ordered newest first. */
  function Latest(hs: seq<HealthSample>): (r: Option<HealthSample>)
    ensures r.Some? <==> |hs| > 0
    ensures r.Some? ==> r.value == hs[0]
  {
    if |hs| > 0 then Some(hs[0]) else None
  }

  /** The sleep branch praises the sleep only when the latest value is a
      Python `int` of at least 7: a `Decimal`, a NULL or a missing sample
      never is. */
  predicate SleepOnTrack(latest: Option<HealthSample>) {
    latest.Some? && latest.value.sleepHours.Some? && latest.value.sleepHours.value.IntValue?
    && latest.value.sleepHours.value.i >= SleepTarget
  }

  /** The answer to every topic except calories, which is the only branch
      the two versions below differ in. */
  function CommonAnswer(t: Topic, info: MemberInfo, ws: seq<LogRow>, hs: seq<HealthSample>, sessions: seq<UpcomingSession>)
    : Result<Reply, RouterError>
    requires t != CalorieTopic
  {
    var latest := Latest(hs);
    match t
    case ProgressTopic =>
      Success(ProgressAnswer(|ws|, AvgDuration(ws), TotalCalories(ws), latest, |ws| >= OnTrackWorkouts))
    case WeightTopic =>
      if |hs| >= 2 then
        var newest := hs[0].weight;
        var oldest := hs[|hs| - 1].weight;
        if newest.None? || oldest.None? then Failure(MissingWeight)
        else
          var change := newest.value - oldest.value;
          Success(WeightAnswer(latest, if change < 0.0 then -change else change, change < 0.0))
      else Success(NeedWeightData)
    case WorkoutTopic =>
      var v := Variety(ws);
      Success(WorkoutAnswer(v, |v| < VarietyTarget))
    case SessionTopic =>
      if sessions == [] then Success(NoSessions)
      else
        var shown := FirstN(sessions, SessionSummaryCap);
        if exists k :: 0 <= k < |shown| && shown[k].date.None? then Failure(MissingDate)
        else Success(SessionsAnswer(shown))
    case SleepTopic =>
      Success(SleepAnswer(if latest.Some? then Some(latest.value.sleepHours) else None, SleepOnTrack(latest)))
    case GoalTopic => Success(GoalAnswer(|ws|))
    case MembershipTopic =>
      if info.joinDate.None? then Failure(MissingDate) else Success(MembershipAnswer(info.tier, info.joinDate.value))
    case GreetingTopic => Success(GreetingAnswer(info.name, |ws|, latest, AvgDuration(ws)))
  }

  /** The reply to a question on topic `t` as the handler computes it: the
      calorie branch divides the total by the number of workouts without
      checking for zero. */
  function ReplyAsWritten(t: Topic, info: MemberInfo, ws: seq<LogRow>, hs: seq<HealthSample>, sessions: seq<UpcomingSession>)
    : (r: Result<Reply, RouterError>)
    ensures t == CalorieTopic ==> (r.Failure? <==> |ws| == 0)
    ensures t == CalorieTopic && r.Success? ==> r.value.CalorieAnswer? && r.value.perWorkout * (|ws| as real) == TotalCalories(ws)
  {
    if t == CalorieTopic then
      if |ws| == 0 then Failure(ZeroDivision)
      else Success(CalorieAnswer(TotalCalories(ws), TotalCalories(ws) / |ws| as real))
    else CommonAnswer(t, info, ws, hs, sessions)
  }

  /** The handler's reply to question `q`. */
  function AnswerAsWritten(q: string, info: MemberInfo, ws: seq<LogRow>, hs: seq<HealthSample>, sessions: seq<UpcomingSession>)
    : Result<Reply, RouterError>
  {
    ReplyAsWritten(Route(q), info, ws, hs, sessions)
  }

  /** None of the first five groups' keywords occurs in "diet": the only
      ones short enough are four letters long and do not start with 'd'. */
  lemma NotContainedInDiet(w: string)
    requires w in Groups[0].1 + Groups[1].1 + Groups[2].1 + Groups[3].1 + Groups[4].1
    ensures !Contains("diet", w)
  {
    assert |w| >= 4 && (|w| == 4 ==> w[0] != 'd');
    assert forall i :: OccursAt("diet", w, i) ==> i == 0 && "diet"[0] == w[0];
  }

  /** The question "diet" is routed to the calorie answer. */
  lemma DietQuestionRoute()
    ensures Route("diet") == CalorieTopic
  {
    var q := "diet";
    assert Contains(q, "diet") by { assert OccursAt(q, "diet", 0); }
    assert MentionsAny(q, Groups[5].1);
    forall j | 0 <= j < 5 ensures !MentionsAny(q, Groups[j].1) {
      forall w | w in Groups[j].1 ensures !Contains(q, w) {
        NotContainedInDiet(w);
      }
    }
    RouteIsFirstHit(q, 5);
  }

  /** A diet question from a member with no workouts in the window makes
      the handler raise instead of answering. */
  lemma DietQuestionWithoutWorkoutsFails(info: MemberInfo, hs: seq<HealthSample>, sessions: seq<UpcomingSession>)
    ensures AnswerAsWritten("diet", info, [], hs, sessions) == Failure(ZeroDivision)
  {
    DietQuestionRoute();
  }

  /** The reply to a question on topic `t` with the calorie average guarded
      as the assistant's statistics guard it: 0 when there are no workouts. */
  function ReplyFor(t: Topic, info: MemberInfo, ws: seq<LogRow>, hs: seq<HealthSample>, sessions: seq<UpcomingSession>)
    : (r: Result<Reply, RouterError>)
    ensures t == CalorieTopic ==>
      (&& r.Success? && r.value.CalorieAnswer?
       && r.value.totalCalories == TotalCalories(ws)
       && (|ws| == 0 ==> r.value.perWorkout == 0.0)
       && r.value.perWorkout * (|ws| as real) == TotalCalories(ws))
  {
    if t == CalorieTopic then Success(CalorieAnswer(TotalCalories(ws), AvgCalories(ws)))
    else CommonAnswer(t, info, ws, hs, sessions)
  }

  /** The reply to question `q`, with the guarded calorie average. */
  function Answer(q: string, info: MemberInfo, ws: seq<LogRow>, hs: seq<HealthSample>, sessions: seq<UpcomingSession>)
    : Result<Reply, RouterError>
  {
    ReplyFor(Route(q), info, ws, hs, sessions)
  }

  /** The guarded reply agrees with the handler's wherever the handler does
      not raise, and differs only on calorie questions without workouts. */
  lemma GuardedReplyFixesOnlyTheDivision(t: Topic, info: MemberInfo, ws: seq<LogRow>, hs: seq<HealthSample>, sessions: seq<UpcomingSession>)
    ensures ReplyAsWritten(t, info, ws, hs, sessions).Success? ==>
      ReplyFor(t, info, ws, hs, sessions) == ReplyAsWritten(t, info, ws, hs, sessions)
    ensures ReplyAsWritten(t, info, ws, hs, sessions) != ReplyFor(t, info, ws, hs, sessions) <==>
      t == CalorieTopic && |ws| == 0
  {
    if t == CalorieTopic && |ws| > 0 {
      var n := |ws| as real;
      assert AvgCalories(ws) == TotalCalories(ws) / n;
    }
  }

  /** Branch-specific promises of the reply: the thresholds each branch
      uses and the data it shows. */
  lemma ReplyBranches(t: Topic, info: MemberInfo, ws: seq<LogRow>, hs: seq<HealthSample>, sessions: seq<UpcomingSession>)
    ensures t == ProgressTopic ==>
      ReplyFor(t, info, ws, hs, sessions).Success?
      && (ReplyFor(t, info, ws, hs, sessions).value.onTrack <==> |ws| >= OnTrackWorkouts)
    ensures t == WeightTopic && |hs| < 2 ==> ReplyFor(t, info, ws, hs, sessions) == Success(NeedWeightData)
    ensures t == WeightTopic && |hs| >= 2 ==>
      (ReplyFor(t, info, ws, hs, sessions).Failure? <==> hs[0].weight.None? || hs[|hs| - 1].weight.None?)
    ensures t == WeightTopic && |hs| >= 2 && ReplyFor(t, info, ws, hs, sessions).Success? ==>
      ReplyFor(t, info, ws, hs, sessions).value.amount >= 0.0
      && ReplyFor(t, info, ws, hs, sessions).value.amount == Abs(hs[0].weight.value - hs[|hs| - 1].weight.value)
      && (ReplyFor(t, info, ws, hs, sessions).value.lost <==> hs[0].weight.value < hs[|hs| - 1].weight.value)
    ensures t == WorkoutTopic ==>
      ReplyFor(t, info, ws, hs, sessions).Success?
      && (ReplyFor(t, info, ws, hs, sessions).value.needsVariety <==> |Labels(ws)| < VarietyTarget)
    ensures t == SessionTopic && sessions != [] && ReplyFor(t, info, ws, hs, sessions).Success? ==>
      ReplyFor(t, info, ws, hs, sessions).value.shown == sessions[..Min(SessionSummaryCap, |sessions|)]
    ensures t == SleepTopic ==>
      ReplyFor(t, info, ws, hs, sessions).Success?
      && (ReplyFor(t, info, ws, hs, sessions).value.onTrack ==> |hs| > 0)
  {
    if t == WorkoutTopic {
      VarietyCountsDistinctLabels(ws);
    }
    if t == SessionTopic && sessions != [] {
      var shown := FirstN(sessions, SessionSummaryCap);
      assert shown == sessions[..Min(SessionSummaryCap, |sessions|)];
    }
  }
}

=== FILE: metrics.dfy ===
/** Activity statistics over a member's recent workouts and health samples:
    guarded averages, the distinct exercise labels, the weight trend and the
    capped summaries handed to the assistant. Workouts arrive newest first
    and health samples newest first, as the handler's queries order them. */
module Metrics {
  import opened Wrappers
  import opened Records

  function Min(a: int, b: int): int {
    if a <= b then a else b
  }

  // ----------------------------------------------------------- averages

  /** The summed durations, a NULL duration counting as 0. */
  function SumDuration(ws: seq<LogRow>): int
    decreases |ws|
  {
    if ws == [] then 0 else SumDuration(ws[..|ws| - 1]) + ws[|ws| - 1].duration.GetOr(0)
  }

  /** The mean duration: 0 without workouts, never a division by zero. */
  function AvgDuration(ws: seq<LogRow>): (r: real)
    ensures |ws| == 0 ==> r == 0.0
    ensures |ws| > 0 ==> r * (|ws| as real) == SumDuration(ws) as real
  {
    if |ws| == 0 then 0.0 else SumDuration(ws) as real / |ws| as real
  }

  /** The summed calories, a NULL value counting as 0. */
  function TotalCalories(ws: seq<LogRow>): real
    decreases |ws|
  {
    if ws == [] then 0.0 else TotalCalories(ws[..|ws| - 1]) + ws[|ws| - 1].calories.GetOr(0.0)
  }

  /** The mean calories per workout: 0 when there are no workouts. */
  function AvgCalories(ws: seq<LogRow>): (r: real)
    ensures |ws| == 0 ==> r == 0.0
    ensures |ws| > 0 ==> r * (|ws| as real) == TotalCalories(ws)
  {
    if |ws| > 0 then TotalCalories(ws) / |ws| as real else 0.0
  }

  /** Summed durations lie between `n * lo` and `n * hi` when each does. */
  lemma {:induction false} SumDurationBounds(ws: seq<LogRow>, lo: int, hi: int)
    requires forall i :: 0 <= i < |ws| ==> lo <= ws[i].duration.GetOr(0) <= hi
    ensures |ws| * lo <= SumDuration(ws) <= |ws| * hi
    decreases |ws|
  {
    if ws != [] {
      var n := |ws| - 1;
      SumDurationBounds(ws[..n], lo, hi);
      assert |ws| * lo == n * lo + lo && |ws| * hi == n * hi + hi;
    }
  }

  /** A quotient of a sum by a positive count lies between bounds the sum
      respects per element. */
  lemma QuotientWithin(r: real, n: real, total: real, lo: real, hi: real)
    requires n > 0.0 && r * n == total
    requires n * lo <= total <= n * hi
    ensures lo <= r <= hi
  {
  }

  lemma CastProduct(a: int, b: int)
    ensures (a * b) as real == (a as real) * (b as real)
  {
  }

  /** The mean duration lies within any bounds every workout's duration
      (NULL read as 0) respects. */
  lemma AvgDurationWithinBounds(ws: seq<LogRow>, lo: int, hi: int)
    requires |ws| > 0
    requires forall i :: 0 <= i < |ws| ==> lo <= ws[i].duration.GetOr(0) <= hi
    ensures lo as real <= AvgDuration(ws) <= hi as real
  {
    SumDurationBounds(ws, lo, hi);
    var n := |ws| as real;
    CastProduct(|ws|, lo);
    CastProduct(|ws|, hi);
    QuotientWithin(AvgDuration(ws), n, SumDuration(ws) as real, lo as real, hi as real);
  }

  // ------------------------------------------------------------ variety

  predicate NoDuplicates<T(==)>(s: seq<T>) {
    forall i, j :: 0 <= i < j < |s| ==> s[i] != s[j]
  }

  /** The labels of `ws`, as a set. */
  ghost function Labels(ws: seq<LogRow>): set<string> {
    set i | 0 <= i < |ws| :: ws[i].exercise
  }

  /** The distinct exercise labels of `ws`, each once. The handler builds a
      Python set, whose order is unspecified; this one keeps the last
      occurrence of each label. */
  function Variety(ws: seq<LogRow>): (r: seq<string>)
    ensures NoDuplicates(r)
    ensures forall x :: x in r <==> x in Labels(ws)
    ensures |r| <= |ws|
  {
    if ws == [] then []
    else
      var rest := Variety(ws[1..]);
      assert Labels(ws) == {ws[0].exercise} + Labels(ws[1..]) by {
        forall x | x in Labels(ws) ensures x == ws[0].exercise || x in Labels(ws[1..]) {
          var i :| 0 <= i < |ws| && ws[i].exercise == x;
          if i > 0 {
            assert ws[1..][i - 1] == ws[i];
          }
        }
        forall x | x in Labels(ws[1..]) ensures x in Labels(ws) {
          var i :| 0 <= i < |ws[1..]| && ws[1..][i].exercise == x;
          assert ws[i + 1] == ws[1..][i];
        }
      }
      if ws[0].exercise in rest then rest else [ws[0].exercise] + rest
  }

  /** A sequence without duplicates has as many elements as its set. */
  lemma {:induction false} DistinctCardinality<T>(s: seq<T>)
    requires NoDuplicates(s)
    ensures |set x | x in s| == |s|
  {
    if s != [] {
      var t := s[1..];
      assert NoDuplicates(t) by {
        forall i, j | 0 <= i < j < |t| ensures t[i] != t[j] {
          assert t[i] == s[i + 1] && t[j] == s[j + 1];
        }
      }
      DistinctCardinality(t);
      assert s[0] !in t by {
        forall i | 0 <= i < |t| ensures t[i] != s[0] {
          assert t[i] == s[i + 1];
        }
      }
      assert (set x | x in s) == (set x | x in t) + {s[0]} by {
        assert s == [s[0]] + t;
      }
    }
  }

  /** The variety list is exactly as long as the number of distinct labels. */
  lemma VarietyCountsDistinctLabels(ws: seq<LogRow>)
    ensures |Variety(ws)| == |Labels(ws)|
  {
    var r := Variety(ws);
    DistinctCardinality(r);
    assert (set x | x in r) == Labels(ws);
  }

  // --------------------------------------------------------- weight trend

  datatype Trend = Decreasing | Stable | Increasing {
    /** The trend seen when the samples are read in the other direction. */
    function Flip(): Trend {
      match this
      case Decreasing => Increasing
      case Stable => Stable
      case Increasing => Decreasing
    }

    function Order(): int {
      match this
      case Decreasing => 0
      case Stable => 1
      case Increasing => 2
    }
  }

  /** A change of more than half a kilogram either way is a trend. */
  const TrendThreshold: real := 0.5

  function Classify(change: real): Trend {
    if change < -TrendThreshold then Decreasing
    else if change > TrendThreshold then Increasing
    else Stable
  }

  /** A larger change never gives a lower trend. */
  lemma ClassifyMonotone(c1: real, c2: real)
    requires c1 <= c2
    ensures Classify(c1).Order() <= Classify(c2).Order()
  {
  }

  /** Negating the change flips the trend, and only changes within the
      threshold are stable. */
  lemma ClassifySymmetric(c: real)
    ensures Classify(-c) == Classify(c).Flip()
    ensures Classify(c) == Stable <==> -TrendThreshold <= c <= TrendThreshold
  {
  }

  /** Subtracting a NULL weight raises a `TypeError` in the handler. */
  datatype MetricsError = NullWeight

  /** The trend from the oldest to the newest sample, with the change in
      kilograms. `hs` is ordered newest first. */
  function WeightTrend(hs: seq<HealthSample>): (r: Result<(Trend, real), MetricsError>)
    ensures |hs| < 2 ==> r == Success((Stable, 0.0))
    ensures |hs| >= 2 ==> (r.Failure? <==> hs[0].weight.None? || hs[|hs| - 1].weight.None?)
    ensures |hs| >= 2 && r.Success? ==> r.value.1 == hs[0].weight.value - hs[|hs| - 1].weight.value
    ensures r.Success? ==> r.value.0 == Classify(r.value.1)
  {
    if |hs| < 2 then Success((Stable, 0.0))
    else
      var newest := hs[0].weight;
      var oldest := hs[|hs| - 1].weight;
      if newest.None? || oldest.None? then Failure(NullWeight)
      else
        var change := newest.value - oldest.value;
        Success((Classify(change), change))
  }

  function Reverse<T>(s: seq<T>): (r: seq<T>)
    ensures |r| == |s|
    ensures forall i :: 0 <= i < |s| ==> r[i] == s[|s| - 1 - i]
  {
    if s == [] then [] else Reverse(s[1..]) + [s[0]]
  }

  /** Reading the samples oldest first negates the change and flips the
      trend; a failing input fails either way. */
  lemma TrendOfReversedSamples(hs: seq<HealthSample>)
    ensures WeightTrend(Reverse(hs)).Failure? <==> WeightTrend(hs).Failure?
    ensures WeightTrend(hs).Success? ==>
      WeightTrend(Reverse(hs)).value == (WeightTrend(hs).value.0.Flip(), -WeightTrend(hs).value.1)
  {
    if |hs| >= 2 {
      var rv := Reverse(hs);
      assert rv[0] == hs[|hs| - 1] && rv[|rv| - 1] == hs[0];
      ClassifySymmetric(hs[0].weight.GetOr(0.0) - hs[|hs| - 1].weight.GetOr(0.0));
    }
  }

  // ----------------------------------------------------------- summaries

  /** How many recent workouts and upcoming sessions the summaries keep. */
  const WorkoutSummaryCap: nat := 5
  const SessionSummaryCap: nat := 3

  /** The fields of a workout the summary shows. */
  datatype WorkoutSummary = WorkoutSummary(exercise: string, date: Option<int>, duration: Option<int>, calories: Option<real>)

  function Summarize(w: LogRow): WorkoutSummary {
    WorkoutSummary(w.exercise, w.date, w.duration, w.calories)
  }

  /** A booked upcoming session as the handler's query returns it. */
  datatype UpcomingSession = UpcomingSession(details: string, date: Option<int>, time: Option<int>)

  /** Summaries of the first `cap` workouts. */
  function SummarizeFirst(ws: seq<LogRow>, cap: nat): (r: seq<WorkoutSummary>)
    ensures |r| == Min(cap, |ws|)
    ensures forall i :: 0 <= i < |r| ==> r[i] == Summarize(ws[i])
  {
    if cap == 0 || ws == [] then [] else [Summarize(ws[0])] + SummarizeFirst(ws[1..], cap - 1)
  }

  /** The first `cap` elements of `s`. */
  function FirstN<T>(s: seq<T>, cap: nat): (r: seq<T>)
    ensures |r| == Min(cap, |s|)
    ensures forall i :: 0 <= i < |r| ==> r[i] == s[i]
  {
    if cap == 0 || s == [] then [] else [s[0]] + FirstN(s[1..], cap - 1)
  }

  // -------------------------------------------------------------- snapshot

  /** Everything the assistant reports about a member's recent activity. */
  datatype Stats = Stats(
    total: nat,
    avgDuration: real,
    totalCalories: real,
    avgCalories: real,
    variety: seq<string>,
    latest: Option<HealthSample>,
    trend: Trend,
    change: real,
    recent: seq<WorkoutSummary>,
    upcoming: seq<UpcomingSession>)

  /** The statistics the assistant computes before it answers; fails exactly
      when the weight trend does. */
  function ComputeStats(ws: seq<LogRow>, hs: seq<HealthSample>, sessions: seq<UpcomingSession>)
    : (r: Result<Stats, MetricsError>)
    ensures r.Failure? <==> WeightTrend(hs).Failure?
    ensures r.Success? ==> r.value.total == |ws| && (r.value.latest.Some? <==> |hs| > 0)
    ensures r.Success? ==> |r.value.recent| <= WorkoutSummaryCap && |r.value.upcoming| <= SessionSummaryCap
    ensures r.Success? ==> r.value.avgCalories * (|ws| as real) == r.value.totalCalories
    ensures r.Success? ==> r.value.latest == (if |hs| > 0 then Some(hs[0]) else None)
    ensures r.Success? ==> (r.value.trend, r.value.change) == WeightTrend(hs).value
    ensures r.Success? ==> r.value.avgDuration == AvgDuration(ws) && r.value.totalCalories == TotalCalories(ws)
                           && r.value.variety == Variety(ws)
    ensures r.Success? ==> r.value.recent == SummarizeFirst(ws, WorkoutSummaryCap)
                           && r.value.upcoming == FirstN(sessions, SessionSummaryCap)
  {
    var trend := WeightTrend(hs);
    if trend.Failure? then Failure(trend.error)
    else
      var latest := if |hs| > 0 then Some(hs[0]) else None;
      Success(Stats(
        |ws|, AvgDuration(ws), TotalCalories(ws), AvgCalories(ws), Variety(ws), latest,
        trend.value.0, trend.value.1,
        SummarizeFirst(ws, WorkoutSummaryCap), FirstN(sessions, SessionSummaryCap)))
  }
}

=== FILE: notifications.dfy ===
/** Member notifications: the renewal check, which warns members whose
    membership ends within a week at most once per seven-day cooldown, and
    the session-reminder and progress notices, which are inserted
    unconditionally. The `Notifications` table is an append-only sequence. */
module Notifications {
  import opened Wrappers
  import opened Records

  /** Memberships ending within this many days of today are due a warning. */
  const RenewalWindowDays: int := 7

  /** No second renewal notice is raised within this many seconds of one. */
  const Cooldown: int := 7 * SecondsPerDay

  /** Whether member `m` is selected by the renewal check on day `today`:
      active, with an end date between today and a week from today inclusive. */
  predicate IsExpiringSoon(m: Member, today: int) {
    m.isActive && m.endDate.Some? && today <= m.endDate.value <= today + RenewalWindowDays
  }

  ghost predicate DistinctIds(members: seq<Member>) {
    forall i, j :: 0 <= i < j < |members| ==> members[i].id != members[j].id
  }

  /** The members after the first of a list with distinct ids have distinct
      ids, none of them the first's. */
  lemma DistinctTail(members: seq<Member>)
    requires members != []
    ensures DistinctIds(members) ==>
      DistinctIds(members[1..]) && forall x :: x in members[1..] ==> x.id != members[0].id
  {
    if DistinctIds(members) {
      var t := members[1..];
      forall i, j | 0 <= i < j < |t| ensures t[i].id != t[j].id {
        assert t[i] == members[i + 1] && t[j] == members[j + 1];
      }
      forall x | x in t ensures x.id != members[0].id {
        var k :| 0 <= k < |t| && t[k] == x;
        assert x == members[k + 1];
      }
    }
  }

  /** A member whose id is not among a list with distinct ids can be put in front. */
  lemma DistinctCons(h: Member, rest: seq<Member>)
    ensures DistinctIds(rest) && (forall x :: x in rest ==> x.id != h.id) ==> DistinctIds([h] + rest)
  {
    if DistinctIds(rest) && forall x :: x in rest ==> x.id != h.id {
      var r := [h] + rest;
      forall i, j | 0 <= i < j < |r| ensures r[i].id != r[j].id {
        assert r[j] == rest[j - 1];
        if i > 0 {
          assert r[i] == rest[i - 1];
        }
      }
    }
  }

  /** The members selected by the renewal check, in table order. */
  function ExpiringMembers(members: seq<Member>, today: int): (r: seq<Member>)
    ensures forall x :: x in r <==> x in members && IsExpiringSoon(x, today)
    ensures forall i :: 0 <= i < |r| ==> IsExpiringSoon(r[i], today)
    ensures DistinctIds(members) ==> DistinctIds(r)
  {
    if members == [] then []
    else
      var rest := ExpiringMembers(members[1..], today);
      assert members == [members[0]] + members[1..];
      DistinctTail(members);
      if IsExpiringSoon(members[0], today) then
        assert DistinctIds(members) ==> forall x :: x in rest ==> x.id != members[0].id;
        DistinctCons(members[0], rest);
        [members[0]] + rest
      else rest
  }

  /** Whether member `mid` has a renewal notice created at or after
      `now - Cooldown`. */
  predicate HasRecentRenewal(store: seq<Notification>, mid: MemberId, now: int) {
    exists i :: 0 <= i < |store| && store[i].member == mid && store[i].kind == Renewal
                && store[i].createdAt >= now - Cooldown
  }

  /** The renewal notice for member `m`, created at `now`. */
  function RenewalNotice(m: Member, now: int): Notification
    requires m.endDate.Some?
  {
    Notification(m.id, Renewal, RenewalBody(m.tier, m.endDate.value - DayOf(now), m.endDate.value), now, false)
  }

  /** One turn of the renewal loop: insert a notice for `m` unless it has a
      recent one (inserts earlier in the same run included). */
  function RenewalStep(store: seq<Notification>, m: Member, now: int): seq<Notification>
    requires m.endDate.Some?
  {
    if HasRecentRenewal(store, m.id, now) then store else store + [RenewalNotice(m, now)]
  }

  predicate AllHaveEndDates(members: seq<Member>) {
    forall i :: 0 <= i < |members| ==> members[i].endDate.Some?
  }

  /** The table after the renewal loop has run over `candidates` in order. */
  function ApplyRenewals(store: seq<Notification>, candidates: seq<Member>, now: int): (r: seq<Notification>)
    requires AllHaveEndDates(candidates)
    ensures |store| <= |r| <= |store| + |candidates|
    ensures r[..|store|] == store
    decreases |candidates|
  {
    if candidates == [] then store
    else
      var n := |candidates| - 1;
      RenewalStep(ApplyRenewals(store, candidates[..n], now), candidates[n], now)
  }

  /** Running the loop over one more candidate is one more step. */
  lemma ApplyRenewalsExtend(store: seq<Notification>, candidates: seq<Member>, i: nat, now: int)
    requires AllHaveEndDates(candidates) && i < |candidates|
    ensures AllHaveEndDates(candidates[..i]) && AllHaveEndDates(candidates[..i + 1])
    ensures ApplyRenewals(store, candidates[..i + 1], now)
         == RenewalStep(ApplyRenewals(store, candidates[..i], now), candidates[i], now)
  {
    assert candidates[..i + 1][..i] == candidates[..i];
    assert candidates[..i + 1][i] == candidates[i];
  }

  /** How the database behaves during one run: no connection at all, an
      error raised at loop turn `step` (a step past the last candidate fails
      the commit), or no error. */
  datatype Connection = Unreachable | FailsAt(step: nat) | Healthy

  datatype RunOutcome = NotConnected | RolledBack | Committed(created: nat)

  /** The renewal check at time `now`: select the expiring members and run
      the loop inside one transaction, which is committed only if no
      statement fails. */
  function RunRenewalCheck(members: seq<Member>, store: seq<Notification>, now: int, conn: Connection)
    : (out: (seq<Notification>, RunOutcome))
  {
    var candidates := ExpiringMembers(members, DayOf(now));
    match conn
    case Unreachable => (store, NotConnected)
    case FailsAt(_) => (store, RolledBack)
    case Healthy =>
      var store' := ApplyRenewals(store, candidates, now);
      (store', Committed(|store'| - |store|))
  }

  /** The renewal check as the loop the handler runs: inserts are made on a
      pending copy and discarded if any statement fails. */
  method CheckMembershipRenewals(members: seq<Member>, store: seq<Notification>, now: int, conn: Connection)
    returns (store': seq<Notification>, outcome: RunOutcome)
    ensures (store', outcome) == RunRenewalCheck(members, store, now, conn)
    ensures outcome.Committed? ==> |store'| == |store| + outcome.created
    ensures !outcome.Committed? ==> store' == store
  {
    if conn.Unreachable? {
      return store, NotConnected;
    }
    var candidates := ExpiringMembers(members, DayOf(now));
    var pending := store;
    var created := 0;
    var i := 0;
    while i < |candidates|
      invariant 0 <= i <= |candidates|
      invariant pending == ApplyRenewals(store, candidates[..i], now)
      invariant |pending| == |store| + created
    {
      if conn == FailsAt(i) {
        return store, RolledBack;
      }
      var m := candidates[i];
      ApplyRenewalsExtend(store, candidates, i, now);
      if !HasRecentRenewal(pending, m.id, now) {
        pending := pending + [RenewalNotice(m, now)];
        created := created + 1;
      }
      i := i + 1;
    }
    assert candidates[..i] == candidates;
    if conn.FailsAt? {
      return store, RolledBack;
    }
    return pending, Committed(created);
  }

  // ----------------------------------------------------------------- lemmas

  /** Whether member `mid` has a row at index `from` or later. */
  ghost predicate NoticedSince(r: seq<Notification>, from: int, mid: MemberId) {
    exists k :: 0 <= from <= k < |r| && r[k].member == mid
  }

  /** Whether notice `n` is addressed to one of `candidates`. */
  ghost predicate ForCandidate(n: Notification, candidates: seq<Member>) {
    exists c :: c in candidates && c.id == n.member
  }

  /** Whether every row from index `from` on is addressed to a candidate. */
  ghost predicate AddedForCandidates(r: seq<Notification>, from: int, candidates: seq<Member>) {
    forall k :: 0 <= from <= k < |r| ==> ForCandidate(r[k], candidates)
  }

  /** Whether every row from index `from` on is an unread renewal notice
      created at `now` with between 0 and 7 days left. */
  ghost predicate AddedAreFreshRenewals(r: seq<Notification>, from: int, now: int) {
    forall k :: 0 <= from <= k < |r| ==>
      && r[k].kind == Renewal && !r[k].isRead && r[k].createdAt == now
      && r[k].body.RenewalBody? && 0 <= r[k].body.daysLeft <= RenewalWindowDays
  }

  /** Whether no two rows from index `from` on are for the same member. */
  ghost predicate AddedOnePerMember(r: seq<Notification>, from: int) {
    forall k1, k2 :: 0 <= from <= k1 < k2 < |r| ==> r[k1].member != r[k2].member
  }

  /** Every notice a run adds is for one of its candidates. */
  lemma {:induction false} NoticesOnlyForCandidates(store: seq<Notification>, candidates: seq<Member>, now: int)
    requires AllHaveEndDates(candidates)
    ensures AddedForCandidates(ApplyRenewals(store, candidates, now), |store|, candidates)
    decreases |candidates|
  {
    if candidates != [] {
      var n := |candidates| - 1;
      NoticesOnlyForCandidates(store, candidates[..n], now);
      var prev := ApplyRenewals(store, candidates[..n], now);
      assert AllHaveEndDates(candidates[..n]);
      var r := ApplyRenewals(store, candidates, now);
      forall k | |store| <= k < |r| ensures ForCandidate(r[k], candidates) {
        if k < |prev| {
          assert r[k] == prev[k];
          assert ForCandidate(prev[k], candidates[..n]);
          var c :| c in candidates[..n] && c.id == prev[k].member;
          assert c in candidates;
        } else {
          assert r[k] == RenewalNotice(candidates[n], now);
          assert candidates[n] in candidates;
        }
      }
    }
  }

  /** Rows added after the old ones, none of them for `mid`, do not change
      whether `mid` has a recent renewal notice. */
  lemma RecentUnaffected(store: seq<Notification>, prev: seq<Notification>, mid: MemberId, now: int)
    requires |store| <= |prev| && prev[..|store|] == store
    requires !NoticedSince(prev, |store|, mid)
    ensures HasRecentRenewal(prev, mid, now) <==> HasRecentRenewal(store, mid, now)
  {
    if HasRecentRenewal(prev, mid, now) {
      var i :| 0 <= i < |prev| && prev[i].member == mid && prev[i].kind == Renewal
               && prev[i].createdAt >= now - Cooldown;
      assert i < |store| && prev[i] == store[i];
    }
    if HasRecentRenewal(store, mid, now) {
      var i :| 0 <= i < |store| && store[i].member == mid && store[i].kind == Renewal
               && store[i].createdAt >= now - Cooldown;
      assert prev[i] == store[i];
    }
  }

  /** One loop turn adds a row for `mid` exactly when `mid` is the member
      handled and has no recent renewal notice. */
  lemma StepNoticed(prev: seq<Notification>, m: Member, now: int, from: int, mid: MemberId)
    requires m.endDate.Some? && 0 <= from <= |prev|
    ensures NoticedSince(RenewalStep(prev, m, now), from, mid)
        <==> NoticedSince(prev, from, mid) || (mid == m.id && !HasRecentRenewal(prev, m.id, now))
  {
    if !HasRecentRenewal(prev, m.id, now) {
      var r := prev + [RenewalNotice(m, now)];
      assert forall k :: from <= k < |prev| ==> r[k] == prev[k];
      assert r[|prev|].member == m.id;
    }
  }

  /** The new notices of a run are all renewal notices, unread, created at
      `now`, with between 0 and 7 days left. */
  lemma {:induction false} RenewalsOnlyAppendNotices(store: seq<Notification>, candidates: seq<Member>, now: int)
    requires AllHaveEndDates(candidates)
    requires forall c :: c in candidates ==> IsExpiringSoon(c, DayOf(now))
    ensures AddedAreFreshRenewals(ApplyRenewals(store, candidates, now), |store|, now)
    decreases |candidates|
  {
    if candidates != [] {
      var n := |candidates| - 1;
      assert forall c :: c in candidates[..n] ==> c in candidates;
      RenewalsOnlyAppendNotices(store, candidates[..n], now);
      assert candidates[n] in candidates;
      var prev := ApplyRenewals(store, candidates[..n], now);
      var r := ApplyRenewals(store, candidates, now);
      if !HasRecentRenewal(prev, candidates[n].id, now) {
        assert r == prev + [RenewalNotice(candidates[n], now)];
        assert forall k :: |store| <= k < |prev| ==> r[k] == prev[k];
      }
    }
  }

  /** A member with a recent renewal notice gets no new one in a run. */
  lemma {:induction false} RecentNoticeSuppresses(store: seq<Notification>, candidates: seq<Member>, now: int, mid: MemberId)
    requires AllHaveEndDates(candidates)
    requires HasRecentRenewal(store, mid, now)
    ensures !NoticedSince(ApplyRenewals(store, candidates, now), |store|, mid)
    decreases |candidates|
  {
    if candidates != [] {
      var n := |candidates| - 1;
      RecentNoticeSuppresses(store, candidates[..n], now, mid);
      var prev := ApplyRenewals(store, candidates[..n], now);
      var i :| 0 <= i < |store| && store[i].member == mid && store[i].kind == Renewal
               && store[i].createdAt >= now - Cooldown;
      assert prev[i] == store[i];
      assert HasRecentRenewal(prev, mid, now);
      StepNoticed(prev, candidates[n], now, |store|, mid);
    }
  }

  /** With distinct candidate ids, a run gives a candidate a notice exactly
      when it had no recent renewal notice beforehand. */
  lemma {:induction false} NoticeIffNoRecentNotice(store: seq<Notification>, candidates: seq<Member>, now: int)
    requires AllHaveEndDates(candidates) && DistinctIds(candidates)
    ensures forall c :: c in candidates ==>
      (NoticedSince(ApplyRenewals(store, candidates, now), |store|, c.id) <==> !HasRecentRenewal(store, c.id, now))
    decreases |candidates|
  {
    if candidates != [] {
      var n := |candidates| - 1;
      var init := candidates[..n];
      var last := candidates[n];
      assert DistinctIds(init);
      assert forall c :: c in init ==> c.id != last.id;
      NoticeIffNoRecentNotice(store, init, now);
      NoticesOnlyForCandidates(store, init, now);
      var prev := ApplyRenewals(store, init, now);
      assert !NoticedSince(prev, |store|, last.id);
      RecentUnaffected(store, prev, last.id, now);
      forall c | c in candidates
        ensures NoticedSince(RenewalStep(prev, last, now), |store|, c.id) <==> !HasRecentRenewal(store, c.id, now)
      {
        StepNoticed(prev, last, now, |store|, c.id);
        if c != last {
          assert c in init;
        }
      }
    }
  }

  /** No run gives one member two notices. */
  lemma {:induction false} AtMostOneNoticeEach(store: seq<Notification>, candidates: seq<Member>, now: int)
    requires AllHaveEndDates(candidates) && DistinctIds(candidates)
    ensures AddedOnePerMember(ApplyRenewals(store, candidates, now), |store|)
    decreases |candidates|
  {
    if candidates != [] {
      var n := |candidates| - 1;
      var init := candidates[..n];
      var last := candidates[n];
      assert DistinctIds(init);
      assert forall c :: c in init ==> c.id != last.id;
      AtMostOneNoticeEach(store, init, now);
      NoticesOnlyForCandidates(store, init, now);
      var prev := ApplyRenewals(store, init, now);
      var r := ApplyRenewals(store, candidates, now);
      forall k | |store| <= k < |prev| ensures prev[k].member != last.id {
        assert ForCandidate(prev[k], init);
      }
      if !HasRecentRenewal(prev, last.id, now) {
        assert r == prev + [RenewalNotice(last, now)];
        forall k1, k2 | |store| <= k1 < k2 < |r| ensures r[k1].member != r[k2].member {
          assert r[k1] == prev[k1];
          if k2 < |prev| {
            assert r[k2] == prev[k2];
          }
        }
      }
    }
  }

  // ------------------------------------------------------- the cooldown rule

  /** Two renewal notices of one member are always more than `Cooldown`
      apart, the earlier row holding the earlier timestamp. */
  ghost predicate RenewalsSpaced(store: seq<Notification>) {
    forall i, j ::
      (0 <= i < j < |store| && store[i].kind == Renewal && store[j].kind == Renewal
       && store[i].member == store[j].member) ==> store[j].createdAt - store[i].createdAt > Cooldown
  }

  ghost predicate CreatedBy(store: seq<Notification>, now: int) {
    forall i :: 0 <= i < |store| ==> store[i].createdAt <= now
  }

  lemma {:induction false} RenewalsKeepSpacing(store: seq<Notification>, candidates: seq<Member>, now: int)
    requires AllHaveEndDates(candidates)
    requires RenewalsSpaced(store) && CreatedBy(store, now)
    ensures RenewalsSpaced(ApplyRenewals(store, candidates, now))
    ensures CreatedBy(ApplyRenewals(store, candidates, now), now)
    decreases |candidates|
  {
    if candidates != [] {
      var n := |candidates| - 1;
      RenewalsKeepSpacing(store, candidates[..n], now);
      var prev := ApplyRenewals(store, candidates[..n], now);
      var m := candidates[n];
      if !HasRecentRenewal(prev, m.id, now) {
        var r := prev + [RenewalNotice(m, now)];
        forall i, j | 0 <= i < j < |r| && r[i].kind == Renewal && r[j].kind == Renewal && r[i].member == r[j].member
          ensures r[j].createdAt - r[i].createdAt > Cooldown
        {
          assert r[i] == prev[i];
          if j < |prev| {
            assert r[j] == prev[j];
          }
        }
      }
    }
  }

  /** A member who received a renewal notice in one run receives none in a
      second run held within the cooldown of the first. */
  lemma SecondRunWithinCooldownIsSilent(
    members1: seq<Member>, members2: seq<Member>, store: seq<Notification>, now1: int, now2: int, mid: MemberId)
    requires now1 <= now2 <= now1 + Cooldown
    requires NoticedSince(RunRenewalCheck(members1, store, now1, Healthy).0, |store|, mid)
    ensures !NoticedSince(
      RunRenewalCheck(members2, RunRenewalCheck(members1, store, now1, Healthy).0, now2, Healthy).0,
      |RunRenewalCheck(members1, store, now1, Healthy).0|, mid)
  {
    var today1 := DayOf(now1);
    var c1 := ExpiringMembers(members1, today1);
    assert AllHaveEndDates(c1) by {
      forall i | 0 <= i < |c1| ensures c1[i].endDate.Some? {
        assert c1[i] in c1;
      }
    }
    forall c | c in c1 ensures IsExpiringSoon(c, today1) { }
    RenewalsOnlyAppendNotices(store, c1, now1);
    var r1 := ApplyRenewals(store, c1, now1);
    var k :| 0 <= |store| <= k < |r1| && r1[k].member == mid;
    assert r1[k].kind == Renewal && r1[k].createdAt == now1;
    assert HasRecentRenewal(r1, mid, now2);
    var c2 := ExpiringMembers(members2, DayOf(now2));
    assert AllHaveEndDates(c2) by {
      forall i | 0 <= i < |c2| ensures c2[i].endDate.Some? {
        assert c2[i] in c2;
      }
    }
    RecentNoticeSuppresses(r1, c2, now2, mid);
  }

  // ------------------------------------------------------ unconditional notices

  /** A reminder for an upcoming session; `ok` is false when the database
      cannot be reached or the insert fails. */
  function CreateSessionReminder(
    store: seq<Notification>, mid: MemberId, details: string, date: int, time: int, now: int, ok: bool)
    : (out: (seq<Notification>, bool))
    ensures out.1 == ok
    ensures ok ==> |out.0| == |store| + 1 && out.0[..|store|] == store
    ensures ok ==> out.0[|store|].member == mid && out.0[|store|].kind == SessionReminder
                   && out.0[|store|].body == ReminderBody(details, date, time)
                   && !out.0[|store|].isRead && out.0[|store|].createdAt == now
    ensures !ok ==> out.0 == store
  {
    if ok then (store + [Notification(mid, SessionReminder, ReminderBody(details, date, time), now, false)], true)
    else (store, false)
  }

  /** A progress milestone notice with a free-text message. */
  function CreateProgressNotification(store: seq<Notification>, mid: MemberId, message: string, now: int, ok: bool)
    : (out: (seq<Notification>, bool))
    ensures out.1 == ok
    ensures ok ==> |out.0| == |store| + 1 && out.0[..|store|] == store
    ensures ok ==> out.0[|store|].member == mid && out.0[|store|].kind == Progress
                   && out.0[|store|].body == ProgressBody(message) && !out.0[|store|].isRead
                   && out.0[|store|].createdAt == now
    ensures !ok ==> out.0 == store
  {
    if ok then (store + [Notification(mid, Progress, ProgressBody(message), now, false)], true)
    else (store, false)
  }

  /** Reminders have no cooldown: asking twice at the same instant stores two
      identical reminders. */
  lemma RemindersAreNotDeduplicated(
    store: seq<Notification>, mid: MemberId, details: string, date: int, time: int, now: int)
    ensures |CreateSessionReminder(CreateSessionReminder(store, mid, details, date, time, now, true).0,
                                   mid, details, date, time, now, true).0| == |store| + 2
    ensures forall k :: |store| <= k < |store| + 2 ==>
      CreateSessionReminder(CreateSessionReminder(store, mid, details, date, time, now, true).0,
                            mid, details, date, time, now, true).0[k]
        == Notification(mid, SessionReminder, ReminderBody(details, date, time), now, false)
  {
  }

  /** Anything that writes notifications, at time `at`. */
  datatype Event =
    | RenewalCheck(members: seq<Member>, at: int, conn: Connection)
    | Reminder(member: MemberId, details: string, date: int, time: int, at: int, ok: bool)
    | ProgressNote(member: MemberId, message: string, at: int, ok: bool)

  function Apply(store: seq<Notification>, e: Event): seq<Notification> {
    match e
    case RenewalCheck(ms, at, conn) => RunRenewalCheck(ms, store, at, conn).0
    case Reminder(mid, d, date, time, at, ok) => CreateSessionReminder(store, mid, d, date, time, at, ok).0
    case ProgressNote(mid, msg, at, ok) => CreateProgressNotification(store, mid, msg, at, ok).0
  }

  function ApplyAll(store: seq<Notification>, events: seq<Event>): seq<Notification>
    decreases |events|
  {
    if events == [] then store else ApplyAll(Apply(store, events[0]), events[1..])
  }

  /** Whether the events happen no earlier than `from` and in time order. */
  ghost predicate Chronological(events: seq<Event>, from: int) {
    && (forall i :: 0 <= i < |events| ==> from <= events[i].at)
    && (forall i, j :: 0 <= i < j < |events| ==> events[i].at <= events[j].at)
  }

  /** Appending a notice of another kind, created by `at`, keeps the
      renewal notices spaced. */
  lemma AppendOtherKind(store: seq<Notification>, r: seq<Notification>, at: int)
    requires RenewalsSpaced(store) && CreatedBy(store, at)
    requires |r| == |store| + 1 && r[..|store|] == store
    requires r[|store|].kind != Renewal && r[|store|].createdAt <= at
    ensures RenewalsSpaced(r) && CreatedBy(r, at)
  {
    forall i | 0 <= i < |store| ensures r[i] == store[i] {
      assert r[..|store|][i] == r[i];
    }
  }

  lemma ApplyKeepsSpacing(store: seq<Notification>, e: Event)
    requires RenewalsSpaced(store) && CreatedBy(store, e.at)
    ensures RenewalsSpaced(Apply(store, e)) && CreatedBy(Apply(store, e), e.at)
  {
    match e
    case RenewalCheck(ms, at, conn) =>
      if conn.Healthy? {
        var c := ExpiringMembers(ms, DayOf(at));
        assert AllHaveEndDates(c) by {
          forall i | 0 <= i < |c| ensures c[i].endDate.Some? {
            assert c[i] in c;
          }
        }
        RenewalsKeepSpacing(store, c, at);
      }
    case Reminder(mid, d, date, time, at, ok) =>
      if ok {
        AppendOtherKind(store, Apply(store, e), at);
      }
    case ProgressNote(mid, msg, at, ok) =>
      if ok {
        AppendOtherKind(store, Apply(store, e), at);
      }
  }

  /** Over any time-ordered history of renewal checks, reminders and
      progress notices, no member is ever sent two renewal notices within
      `Cooldown` of each other. */
  lemma {:induction false} HistoryKeepsRenewalsSpaced(store: seq<Notification>, events: seq<Event>, from: int)
    requires RenewalsSpaced(store) && CreatedBy(store, from)
    requires Chronological(events, from)
    ensures RenewalsSpaced(ApplyAll(store, events))
    decreases |events|
  {
    if events != [] {
      var e := events[0];
      forall i | 0 <= i < |store| ensures store[i].createdAt <= e.at { }
      ApplyKeepsSpacing(store, e);
      var rest := events[1..];
      assert Chronological(rest, e.at) by {
        forall i | 0 <= i < |rest| ensures e.at <= rest[i].at {
          assert rest[i] == events[i + 1];
        }
        forall i, j | 0 <= i < j < |rest| ensures rest[i].at <= rest[j].at {
          assert rest[i] == events[i + 1] && rest[j] == events[j + 1];
        }
      }
      HistoryKeepsRenewalsSpaced(Apply(store, e), rest, e.at);
    }
  }
}

=== FILE: recommendations.dfy ===
/** The rule-based workout recommender: five independent rules evaluated in
    a fixed order over a member's last-30-day exercise groups, latest health
    sample and last-7-day workout count, a default when none fires, and a cap
    of three suggestions. */
module Recommendations {
  import opened Wrappers
  import opened Records
  import Metrics

  datatype Kind = Cardio | Recovery | General | Variety | Intensity

  /** The exercises the recommender can suggest. */
  datatype Exercise =
    | BriskWalking | Walking | EveningYoga | MixedCardioStrength | RecoveryStretching
    | HiitTraining | IntervalTraining | CurrentRoutine | GeneralFitness
  {
    /** The label shown to the member. */
    function Label(): string {
      match this
      case BriskWalking => "Brisk Walking"
      case Walking => "Walking"
      case EveningYoga => "Evening Yoga"
      case MixedCardioStrength => "Mixed Cardio & Strength"
      case RecoveryStretching => "Recovery Stretching"
      case HiitTraining => "HIIT Training"
      case IntervalTraining => "Interval Training"
      case CurrentRoutine => "Current Routine"
      case GeneralFitness => "General Fitness"
    }
  }

  /** A suggestion; its message text is a fixed string per exercise and is
      not modelled. */
  datatype Recommendation = Recommendation(kind: Kind, exercise: Exercise, duration: nat)

  /** One row of the per-exercise aggregate over the last 30 days. */
  datatype ExerciseGroup = ExerciseGroup(
    exercise: string,
    avgCalories: Option<real>,
    avgDuration: Option<real>,
    frequency: nat)

  /** What the three queries produced: no connection, a storage error, or
      the exercise groups, the latest health sample (if any) and the number
      of workouts in the last 7 days. */
  datatype Fetch =
    | NoConnection
    | StorageError
    | Fetched(groups: seq<ExerciseGroup>, latest: Option<HealthSample>, weekly: nat)

  const MaxRecommendations: nat := 3

  const BriskWalk := Recommendation(Cardio, BriskWalking, 30)
  const Walk := Recommendation(Cardio, Walking, 20)
  const Yoga := Recommendation(Recovery, EveningYoga, 20)
  const MixedSession := Recommendation(General, MixedCardioStrength, 45)
  const RecoveryStretch := Recommendation(Recovery, RecoveryStretching, 30)
  const Hiit := Recommendation(Variety, HiitTraining, 30)
  const Intervals := Recommendation(Intensity, IntervalTraining, 40)
  /** The suggestion given when no rule fires. */
  const KeepRoutine := Recommendation(General, CurrentRoutine, 45)
  /** The single suggestion given when a query fails. */
  const FallbackFitness := Recommendation(General, GeneralFitness, 30)

  function Steps(latest: Option<HealthSample>): Option<int> {
    if latest.Some? then latest.value.steps else None
  }

  function SleepHours(latest: Option<HealthSample>): Option<real> {
    if latest.Some? && latest.value.sleepHours.Some? then Some(latest.value.sleepHours.value.Value())
    else None
  }

  /** Sum of the groups' average calories, a NULL average counting as 0. */
  function SumAvgCalories(groups: seq<ExerciseGroup>): real {
    if groups == [] then 0.0
    else SumAvgCalories(groups[..|groups| - 1]) + groups[|groups| - 1].avgCalories.GetOr(0.0)
  }

  /** Whether the mean of the groups' average calories is below 200. The
      mean is only taken when there is at least one group, and the
      comparison is stated without the division. */
  predicate LowMeanCalories(groups: seq<ExerciseGroup>) {
    |groups| > 0 && SumAvgCalories(groups) < 200.0 * (|groups| as real)
  }

  /** The comparison above is the source's `mean < 200`, with the mean
      taken only over a non-empty list of groups. */
  lemma LowMeanCaloriesIsMeanBelow200(groups: seq<ExerciseGroup>)
    requires |groups| > 0
    ensures LowMeanCalories(groups) <==> SumAvgCalories(groups) / (|groups| as real) < 200.0
  {
    var n := |groups| as real;
    var mean := SumAvgCalories(groups) / n;
    assert mean * n == SumAvgCalories(groups);
    if mean < 200.0 {
      assert mean * n < 200.0 * n;
    } else {
      assert mean * n >= 200.0 * n;
    }
  }

  // Rule 1: steps below 5000, or between 5000 and 8000.
  function StepsRule(latest: Option<HealthSample>): Option<Recommendation> {
    match Steps(latest)
    case None => None
    case Some(n) =>
      if n < 5000 then Some(BriskWalk)
      else if n < 8000 then Some(Walk)
      else None
  }

  // Rule 2: less than six hours of sleep.
  function SleepRule(latest: Option<HealthSample>): Option<Recommendation> {
    match SleepHours(latest)
    case None => None
    case Some(h) => if h < 6.0 then Some(Yoga) else None
  }

  // Rule 3: fewer than three, or at least five, workouts this week.
  function FrequencyRule(weekly: nat): Option<Recommendation> {
    if weekly < 3 then Some(MixedSession)
    else if weekly >= 5 then Some(RecoveryStretch)
    else None
  }

  // Rule 4: a single exercise in the last 30 days.
  function VarietyRule(groups: seq<ExerciseGroup>): Option<Recommendation> {
    if |groups| > 0 && |groups| < 2 then Some(Hiit) else None
  }

  // Rule 5: mean of the per-exercise average calories below 200.
  function CaloriesRule(groups: seq<ExerciseGroup>): Option<Recommendation> {
    if LowMeanCalories(groups) then Some(Intervals) else None
  }

  /** The outputs of the five rules, in evaluation order. */
  function RuleOutputs(groups: seq<ExerciseGroup>, latest: Option<HealthSample>, weekly: nat): seq<Option<Recommendation>> {
    [StepsRule(latest), SleepRule(latest), FrequencyRule(weekly), VarietyRule(groups), CaloriesRule(groups)]
  }

  /** The suggestions among `outputs`, in order. */
  function Collect(outputs: seq<Option<Recommendation>>): seq<Recommendation> {
    if outputs == [] then [] else outputs[0].ToSeq() + Collect(outputs[1..])
  }

  /** The suggestions of all rules that fire, in rule order. */
  function Fired(groups: seq<ExerciseGroup>, latest: Option<HealthSample>, weekly: nat): seq<Recommendation> {
    Collect(RuleOutputs(groups, latest, weekly))
  }

  /** The recommendations returned for one member. */
  function Recommend(f: Fetch): (r: seq<Recommendation>)
    ensures f.NoConnection? ==> r == []
    ensures f.StorageError? ==> r == [FallbackFitness]
    ensures f.Fetched? ==> 1 <= |r| <= MaxRecommendations
  {
    match f
    case NoConnection => []
    case StorageError => [FallbackFitness]
    case Fetched(groups, latest, weekly) =>
      var fired := Fired(groups, latest, weekly);
      var all := if fired == [] then [KeepRoutine] else fired;
      all[..Metrics.Min(MaxRecommendations, |all|)]
  }

  // ------------------------------------------------------- the reference view

  /** The position of the rule that produces `rec` in the evaluation order
      (5 for anything no rule produces). */
  function Rank(rec: Recommendation): nat {
    match rec.exercise
    case BriskWalking => 0
    case Walking => 0
    case EveningYoga => 1
    case MixedCardioStrength => 2
    case RecoveryStretching => 2
    case HiitTraining => 3
    case IntervalTraining => 4
    case CurrentRoutine => 5
    case GeneralFitness => 5
  }

  /** Whether the data calls for suggestion `rec`, one condition per
      suggestion and independent of how the list is assembled. */
  predicate Triggered(groups: seq<ExerciseGroup>, latest: Option<HealthSample>, weekly: nat, rec: Recommendation) {
    || (rec == BriskWalk && Steps(latest).Some? && Steps(latest).value < 5000)
    || (rec == Walk && Steps(latest).Some? && 5000 <= Steps(latest).value < 8000)
    || (rec == Yoga && SleepHours(latest).Some? && SleepHours(latest).value < 6.0)
    || (rec == MixedSession && weekly < 3)
    || (rec == RecoveryStretch && weekly >= 5)
    || (rec == Hiit && |groups| == 1)
    || (rec == Intervals && LowMeanCalories(groups))
  }

  predicate RankIncreasing(s: seq<Recommendation>) {
    forall i, j :: 0 <= i < j < |s| ==> Rank(s[i]) < Rank(s[j])
  }

  /** Rule `j` only produces suggestions of rank `j`. */
  lemma RuleRanks(groups: seq<ExerciseGroup>, latest: Option<HealthSample>, weekly: nat)
    ensures var outs := RuleOutputs(groups, latest, weekly);
      forall j :: 0 <= j < |outs| && outs[j].Some? ==> Rank(outs[j].value) == j
  {
  }

  /** Collecting outputs whose ranks follow their positions yields strictly
      increasing ranks, all within the positions' range. */
  lemma {:induction false} CollectRanked(outputs: seq<Option<Recommendation>>, base: nat)
    requires forall j :: 0 <= j < |outputs| && outputs[j].Some? ==> Rank(outputs[j].value) == base + j
    ensures RankIncreasing(Collect(outputs))
    ensures forall x :: x in Collect(outputs) ==> base <= Rank(x) < base + |outputs|
  {
    if outputs != [] {
      var tailOuts := outputs[1..];
      assert forall j :: 0 <= j < |tailOuts| ==> tailOuts[j] == outputs[j + 1];
      CollectRanked(tailOuts, base + 1);
      var head := outputs[0].ToSeq();
      var tail := Collect(tailOuts);
      var r := head + tail;
      forall i, j | 0 <= i < j < |r| ensures Rank(r[i]) < Rank(r[j]) {
        assert r[j] == tail[j - |head|];
        if i >= |head| {
          assert r[i] == tail[i - |head|];
        }
      }
    }
  }

  /** The collected suggestions are exactly the present outputs. */
  lemma {:induction false} CollectMembers(outputs: seq<Option<Recommendation>>, x: Recommendation)
    ensures x in Collect(outputs) <==> Some(x) in outputs
  {
    if outputs != [] {
      CollectMembers(outputs[1..], x);
      assert outputs == [outputs[0]] + outputs[1..];
    }
  }

  /** A suggestion is produced by some rule exactly when it is triggered. */
  lemma FiredIsTriggered(groups: seq<ExerciseGroup>, latest: Option<HealthSample>, weekly: nat, x: Recommendation)
    ensures x in Fired(groups, latest, weekly) <==> Triggered(groups, latest, weekly, x)
  {
    CollectMembers(RuleOutputs(groups, latest, weekly), x);
  }

  /** Cutting a rank-ordered list to its first entries keeps the order, and
      anything cut ranks after every kept entry of a full list. */
  lemma TruncatedKeepsTop(s: seq<Recommendation>)
    requires RankIncreasing(s)
    ensures RankIncreasing(s[..Metrics.Min(MaxRecommendations, |s|)])
    ensures forall x :: x in s && x !in s[..Metrics.Min(MaxRecommendations, |s|)] ==>
      |s| > MaxRecommendations && forall i :: 0 <= i < MaxRecommendations ==> Rank(s[i]) < Rank(x)
  {
    var r := s[..Metrics.Min(MaxRecommendations, |s|)];
    forall x | x in s && x !in r
      ensures |s| > MaxRecommendations && forall i :: 0 <= i < MaxRecommendations ==> Rank(s[i]) < Rank(x)
    {
      var k :| 0 <= k < |s| && s[k] == x;
      assert forall i :: 0 <= i < |r| ==> r[i] == s[i];
    }
  }

  /** The fired suggestions come in strictly increasing rule order. */
  lemma FiredRanked(groups: seq<ExerciseGroup>, latest: Option<HealthSample>, weekly: nat)
    ensures RankIncreasing(Fired(groups, latest, weekly))
  {
    RuleRanks(groups, latest, weekly);
    CollectRanked(RuleOutputs(groups, latest, weekly), 0);
  }

  /** The fired suggestions are exactly the triggered ones. */
  lemma FiredExactlyTriggered(groups: seq<ExerciseGroup>, latest: Option<HealthSample>, weekly: nat)
    ensures forall x :: x in Fired(groups, latest, weekly) <==> Triggered(groups, latest, weekly, x)
  {
    forall x ensures x in Fired(groups, latest, weekly) <==> Triggered(groups, latest, weekly, x) {
      FiredIsTriggered(groups, latest, weekly, x);
    }
  }

  /** When some rule fires, the list returned is the top of the fired list:
      triggered suggestions only, in rule order, cutting only lower-ranked ones. */
  lemma TopRulesWhenFired(groups: seq<ExerciseGroup>, latest: Option<HealthSample>, weekly: nat)
    requires Fired(groups, latest, weekly) != []
    ensures var r := Recommend(Fetched(groups, latest, weekly));
      && r != [KeepRoutine]
      && (forall i :: 0 <= i < |r| ==> Triggered(groups, latest, weekly, r[i]))
      && RankIncreasing(r)
      && (forall rec :: Triggered(groups, latest, weekly, rec) && rec !in r ==>
            |r| == MaxRecommendations && forall i :: 0 <= i < |r| ==> Rank(r[i]) < Rank(rec))
  {
    var fired := Fired(groups, latest, weekly);
    var r := Recommend(Fetched(groups, latest, weekly));
    FiredRanked(groups, latest, weekly);
    FiredExactlyTriggered(groups, latest, weekly);
    assert r == fired[..Metrics.Min(MaxRecommendations, |fired|)];
    TruncatedKeepsTop(fired);
    assert !Triggered(groups, latest, weekly, KeepRoutine);
    assert r[0] in fired;
    forall i | 0 <= i < |r| ensures Triggered(groups, latest, weekly, r[i]) {
      assert r[i] in fired;
    }
  }

  /** The list returned on fetched data is exactly the highest-priority
      (at most three) of the triggered suggestions, in rule order, or the
      default suggestion alone when nothing is triggered. */
  lemma RecommendSelectsTopRules(groups: seq<ExerciseGroup>, latest: Option<HealthSample>, weekly: nat)
    ensures var r := Recommend(Fetched(groups, latest, weekly));
      && (r == [KeepRoutine] <==> forall rec :: !Triggered(groups, latest, weekly, rec))
      && (r != [KeepRoutine] ==> forall i :: 0 <= i < |r| ==> Triggered(groups, latest, weekly, r[i]))
      && RankIncreasing(r)
      && (forall rec :: Triggered(groups, latest, weekly, rec) && rec !in r ==>
            |r| == MaxRecommendations && forall i :: 0 <= i < |r| ==> Rank(r[i]) < Rank(rec))
  {
    FiredExactlyTriggered(groups, latest, weekly);
    if Fired(groups, latest, weekly) != [] {
      TopRulesWhenFired(groups, latest, weekly);
      var x := Fired(groups, latest, weekly)[0];
      assert Triggered(groups, latest, weekly, x);
    }
  }

  /** A member with 4000 steps, 5 hours of sleep and two workouts this week
      is told to walk briskly, do evening yoga and add a mixed session, in
      that order. */
  lemma LowActivityScenario(groups: seq<ExerciseGroup>, latest: HealthSample)
    requires latest.steps == Some(4000) && latest.sleepHours == Some(IntValue(5))
    ensures Recommend(Fetched(groups, Some(latest), 2)) == [BriskWalk, Yoga, MixedSession]
  {
    var outs := RuleOutputs(groups, Some(latest), 2);
    assert outs[1..][1..] == outs[2..];
    assert Collect(outs[2..]) == [MixedSession] + Collect(outs[3..]);
    assert Collect(outs) == [BriskWalk, Yoga] + Collect(outs[2..]);
  }

  /** With a single exercise group averaging 150 calories and no health
      sample, interval training is among the suggestions. */
  lemma LowIntensityScenario(g: ExerciseGroup, weekly: nat)
    requires g.avgCalories == Some(150.0)
    ensures Intervals in Recommend(Fetched([g], None, weekly))
  {
    assert SumAvgCalories([g]) == 150.0 by {
      assert [g][..0] == [];
    }
    var outs := RuleOutputs([g], None, weekly);
    assert outs[3] == Some(Hiit) && outs[4] == Some(Intervals);
    assert outs[4..][1..] == [];
    assert Collect(outs[4..]) == [Intervals];
    assert outs[3..][1..] == outs[4..];
    assert Collect(outs[3..]) == [Hiit, Intervals];
    assert outs[2..][1..] == outs[3..];
    assert Collect(outs[2..]) == FrequencyRule(weekly).ToSeq() + [Hiit, Intervals];
    assert outs[1..][1..] == outs[2..];
    assert outs[0] == None && outs[1] == None;
    assert Collect(outs[1..]) == Collect(outs[2..]);
    assert Collect(outs) == FrequencyRule(weekly).ToSeq() + [Hiit, Intervals];
  }
}

=== FILE: records.dfy ===
/** The rows of the gym database that the engine reads and writes.

    Dates are day numbers, times of day are seconds after midnight, and
    timestamps are seconds; all three come from one clock. Nullable columns
    are `Option`s. */
module Records {
  import opened Wrappers

  type MemberId = int
  type SessionId = int
  type LogId = int

  const SecondsPerDay: int := 86400

  /** The calendar day a timestamp falls on. */
  function DayOf(timestamp: int): int {
    timestamp / SecondsPerDay
  }

  /** A numeric column value as the backend sees it: a Python `int` or a `Decimal`. */
  datatype Number = IntValue(i: int) | DecimalValue(d: real) {
    function Value(): real {
      match this
      case IntValue(i) => i as real
      case DecimalValue(d) => d
    }
  }

  /** A row of `Session`: a trainer-led slot with a fixed capacity. */
  datatype Session = Session(
    id: SessionId,
    trainer: int,
    date: int,
    time: int,
    duration: Option<int>,
    maxParticipants: int,
    details: string)

  /** A row of `WorkoutLog`. A booking is a row whose exercise label is
      `SessionBooking` and whose session column is set. */
  datatype LogRow = LogRow(
    id: LogId,
    member: MemberId,
    session: Option<SessionId>,
    exercise: string,
    date: Option<int>,
    duration: Option<int>,
    calories: Option<real>,
    distance: Option<real>,
    progress: Option<string>)

  /** The exercise label that marks a workout-log row as a reservation. */
  const SessionBooking: string := "Session Booking"

  /** The progress label written on every reservation row. */
  const BookedProgress: string := "Booked"

  /** Whether `r` counts as a reservation of session `sid`. */
  predicate IsBookingFor(r: LogRow, sid: SessionId) {
    r.session == Some(sid) && r.exercise == SessionBooking
  }

  /** A row of `HealthMetrics`. */
  datatype HealthSample = HealthSample(
    date: int,
    weight: Option<real>,
    height: Option<real>,
    sleepHours: Option<Number>,
    waterLiters: Option<real>,
    steps: Option<int>)

  /** The columns of `Member` (joined with its membership type) that the engine reads. */
  datatype Member = Member(
    id: MemberId,
    name: string,
    tier: string,
    isActive: bool,
    endDate: Option<int>)

  /** The member columns the assistant reads: name, age, membership name
      and join date. */
  datatype MemberInfo = MemberInfo(name: string, age: Option<int>, tier: string, joinDate: Option<int>)

  /** The `Type` column of `Notifications`. */
  datatype NoticeKind = Renewal | SessionReminder | Progress

  /** What a notification's message says, before it is formatted as text. */
  datatype NoticeBody =
    | RenewalBody(tier: string, daysLeft: int, endDate: int)
    | ReminderBody(details: string, date: int, time: int)
    | ProgressBody(message: string)

  /** A row of `Notifications`. */
  datatype Notification = Notification(
    member: MemberId,
    kind: NoticeKind,
    body: NoticeBody,
    createdAt: int,
    isRead: bool)
}

=== FILE: wrappers.dfy ===
/** Optional values and results with an error, used for nullable columns,
    absent request fields and failing handlers. */
module Wrappers {

  /** A value that may be absent: a SQL NULL, a missing JSON key or a missing row. */
  datatype Option<+T> = None | Some(value: T) {

    /** The value, or `default` when absent (Python's `x or default` on a NULL). */
    function GetOr(default: T): T {
      match this
      case Some(v) => v
      case None => default
    }

    /** The value as a sequence of length zero or one. */
    function ToSeq(): (s: seq<T>)
      ensures |s| <= 1
      ensures Some? <==> |s| == 1
      ensures Some? ==> s[0] == value
    {
      match this
      case Some(v) => [v]
      case None => []
    }
  }

  /** The outcome of a computation that can raise. */
  datatype Result<+T, +E> = Success(value: T) | Failure(error: E)
}
